=== FILE: README.md ===
# Diagram access control and edit session — a Dafny model

This project models the core of a collaborative diagram builder. Users
create flow diagrams in a document store. Each diagram has an owner and an
access map that grants other users the `editor` or `viewer` role. The
modelled core covers:

- **Role resolution** (`Roles`): `getUserDiagramRole`. The owner is always an
  editor. Anyone else has the role of their access entry, and a user without
  an entry has no role.
- **The diagram repository** (`Repository`): create, read, list
  (owned-then-shared), content and info updates, delete, and the two
  access-map updates `shareDiagram` and `removeAccess`. The store is a map
  from document id to stored document, and every operation is a pure
  transformer of that map.
- **User lookup** (`Users`): `findUserByEmail` over the `users` collection.
- **The hooks** (`Hooks`): `useDiagram` and `useDiagrams`.
  - `useDiagram` holds one open diagram. It derives `userRole` and
    `canEdit`, and it gates `saveContent`, `saveInfo`, `shareWithUser` and
    `revokeAccess` on `canEdit` before any write. It throws the program's
    exact messages.
  - `useDiagrams` holds the dashboard list: refresh, create (prepending),
    and remove (filtering).
- **The edit buffer** (`EditBuffer`): the editor page's working copy of
  nodes and edges, the unsaved-changes flag, and the counter behind
  `node-<n>` ids.
  - The load effect recomputes the counter from the loaded node ids, as
    `parseInt(id.replace('node-', ''), 10)` does.
  - Every gesture except relabelling is ignored without edit permission.
- **The node label editor** (`LabelEditor`): the viewing/editing state
  machine of a node. It calls the relabel callback only when the text
  really changed.
- **The editor page** (`EditorPage`): the buffer wired to the session, plus
  `handleSave`, `handleShare`, `handleRevokeAccess` and the load effect.
- **The login form** (`Login`): `validateForm`, `handleSubmit` and
  `toggleMode`. The authentication service is a parameter.
- **Scenarios** (`Scenarios`): concrete walks through the model.

The JavaScript string built-ins the core depends on are written out in
`Text`:

- `trim`, with the full ECMAScript WhiteSpace and LineTerminator set;
- `indexOf`, and `replace` with a string pattern (first occurrence only);
- `parseInt(_, 10)`, where `NaN` is `None`;
- template-literal rendering of a natural number;
- `toLowerCase`, on ASCII letters only.

Time, randomness and the graph library are parameters:

- A single `now: Timestamp` stands for both the client clock and the
  server timestamp of one operation.
- The position of an added node is a parameter; the program draws it at
  random.
- The store's enumeration order is a `order: seq<DiagramId>` parameter.
- The graph library's `applyNodeChanges`, `applyEdgeChanges` and `addEdge`
  are function parameters.

Behaviours of the code worth noting:

- `removeAccess` does not refuse the owner's id. It deletes whatever entry
  is stored under it. Role resolution still makes the owner an editor
  (`Roles.OwnerIsAlwaysEditor`), so the owner keeps edit rights.
- `handleLabelChange` makes no role check. A viewer who double-clicks a
  node and types a new label changes the local buffer and sets the
  unsaved-changes flag. The save is then a no-op, because `handleSave`
  checks `canEdit` (`EditorPage.ViewerRelabelStaysLocal`).
- The "unchanged label is a no-op" rule lives in the node editor's
  `saveLabel`, not in `handleLabelChange`. `handleLabelChange` with an
  unchanged label still marks the buffer changed.
- Reading is not gated. `useDiagram` loads any diagram whose id it is given,
  and a user with no role sees it read-only. No `NoAccess` error exists
  (`EditorPage.UnlistedUserCanRead`).
- The page swallows errors: `handleSave` and `handleRevokeAccess` catch
  and log them, and a failed sign-in or sign-up is only visible through the
  authentication context's error.
- A successful share or revoke reloads the diagram. The page's load effect
  then replaces the buffer's nodes and edges with the stored ones, but
  keeps the unsaved-changes flag, so edits not yet saved are discarded
  while the page still reports unsaved changes
  (`EditorPage.ShareReloadsBuffer`).

## Model

| member | source | states |
|---|---|---|
| Roles.GetUserDiagramRole | src/services/diagrams.ts:207-215 | the role is editor iff the user owns the diagram or holds an editor entry, viewer iff a non-owner holds a viewer entry, and none iff a non-owner has no entry |
| Roles.OwnerIsAlwaysEditor | src/services/diagrams.ts:211-213 | whatever the access map holds, the owner resolves to editor |
| Roles.RoleDependsOnlyOnOwnEntry | src/services/diagrams.ts:207-215 | a user's role is determined by the owner id and that user's own entry; other entries and fields do not matter |
| Repository.ReadOfFullRecord | src/services/diagrams.ts:58-78 | a document stored with every field reads back as exactly the diagram it was written from |
| Repository.ToDiagram | src/services/diagrams.ts:64-75 | a stored document reads with its id, title, description and owner as stored; missing nodes, edges and access read as empty and missing timestamps as the time of reading, present ones as stored |
| Repository.GetDiagram | src/services/diagrams.ts:58-78 | none iff no document has the id; otherwise the id, title, description, owner and owner e-mail as stored, missing nodes, edges and access read as empty and missing timestamps as the time of reading, present ones as stored |
| Repository.CreateDiagram | src/services/diagrams.ts:19-56 | the new diagram has an empty graph and only the owner's editor entry; the owner resolves to editor; only the new id is added to the store, and reading it gives back the returned diagram |
| Repository.Query | src/services/diagrams.ts:80-126 | every listed diagram is a stored document, read as getDiagram reads it, and belongs to the queried part (owned, or shared with a non-owner entry) |
| Repository.QueryComplete | src/services/diagrams.ts:80-126 | a query lists every enumerated document of its part |
| Repository.GetUserDiagrams | src/services/diagrams.ts:80-126 | every listed diagram gives the user a role; owned diagrams come before shared ones; no diagram is in both parts |
| Repository.GetUserDiagramsComplete | src/services/diagrams.ts:80-126 | an enumerated document is listed iff the user has a role on it |
| Repository.QueryDistinct | src/services/diagrams.ts:80-126 | when the enumeration names each document once, a query lists each diagram once |
| Repository.GetUserDiagramsDistinct | src/services/diagrams.ts:80-126 | when the enumeration names each document once, the combined owned-then-shared list names each diagram once |
| Repository.UpdateDiagramContent | src/services/diagrams.ts:128-139 | succeeds iff the document exists; sets nodes, edges and the update time, and changes no other field or document |
| Repository.UpdateDiagramInfo | src/services/diagrams.ts:141-152 | succeeds iff the document exists; sets title, description and the update time, and changes no other field or document |
| Repository.DeleteDiagram | src/services/diagrams.ts:154-157 | the id is gone and every other document is unchanged |
| Repository.GetAfterDelete | src/services/diagrams.ts:154-157 | after deletion, reading the id gives nothing |
| Repository.ShareDiagram | src/services/diagrams.ts:159-185 | fails with "Diagram not found" iff the document is missing; otherwise the read access map gets the user's entry (role, e-mail as given, time) and nothing else changes |
| Repository.RemoveAccess | src/services/diagrams.ts:187-205 | fails iff the document is missing; otherwise exactly the user's entry is removed from the read access map, the owner's included |
| Repository.ShareIdempotent | src/services/diagrams.ts:159-185 | sharing twice with the same arguments gives the same store as sharing once |
| Repository.ShareResolvesRole | src/services/diagrams.ts:159-185 | after a share, the shared-with user resolves to the granted role (editor when they own it), and every other user's role is unchanged |
| Repository.RemoveAccessResolvesRole | src/services/diagrams.ts:187-205 | after removal, the user has no role unless they own the diagram, and every other user's role is unchanged |
| Repository.RemoveAfterShare | src/services/diagrams.ts:159-205 | removing an entry right after granting it gives the access map read before, without any entry the user had |
| Users.FindUserByEmail | src/services/users.ts:10-29 | the first profile whose stored e-mail equals the lower-cased query; none iff no profile has that e-mail |
| Hooks.UserRole | src/hooks/useDiagrams.ts:126 | a role only with a loaded diagram and user; then a role iff the user owns the diagram or has an entry, and viewer iff a non-owner holds a viewer entry |
| Hooks.CanEdit | src/hooks/useDiagrams.ts:126-127 | edit permission iff a diagram and a user are loaded and the user owns it or holds an editor entry |
| Hooks.RefreshDiagram | src/hooks/useDiagrams.ts:101-120 | without a non-empty id nothing is loaded; otherwise the loaded diagram is present iff the document exists, and is as getDiagram reads it |
| Hooks.SaveContent | src/hooks/useDiagrams.ts:129-136 | without an id or edit permission, throws the cannot-save message and writes nothing; succeeds iff permitted and the document exists, and then only the graph and the update time, set to the time of the save, change in the store and in the loaded diagram |
| Hooks.SaveThenReload | src/hooks/useDiagrams.ts:129-136 | a permitted save followed by a reload gives back exactly the saved graph |
| Hooks.SaveInfo | src/hooks/useDiagrams.ts:138-145 | the same gate as saving content; on success only title, description and the update time, set to the time of the save, change in the store and in the loaded diagram |
| Hooks.ShareWithUser | src/hooks/useDiagrams.ts:147-159 | a non-editor gets the cannot-share message and an unknown e-mail gets "User not found with that email", both with no write; otherwise the looked-up user is granted the role and the diagram is reloaded |
| Hooks.RevokeAccess | src/hooks/useDiagrams.ts:161-168 | a non-editor gets the cannot-revoke message with no write; otherwise the entry is removed and the diagram reloaded |
| Hooks.ViewerCannotWrite | src/hooks/useDiagrams.ts:129-168 | for a viewer, save, info save, share and revoke all throw and leave store and loaded diagram unchanged |
| Hooks.RefreshDiagrams | src/hooks/useDiagrams.ts:32-51 | nobody signed in lists nothing; otherwise the list is exactly getUserDiagrams' owned-then-shared listing for the signed-in user, so every listed diagram is a stored document, read as getDiagram reads it, that gives the user a role |
| Hooks.RefreshDiagramsComplete | src/hooks/useDiagrams.ts:32-51 | with a user signed in, a stored document is listed exactly when it gives that user a role |
| Hooks.CreateNewDiagram | src/hooks/useDiagrams.ts:57-65 | throws "User must be logged in to create a diagram" iff nobody is signed in; otherwise the new diagram carries the given id, title and description, the user as owner with their e-mail, an empty graph, only the owner's editor entry and the creation time; it is prepended to the list and can be read back; the store gains exactly the new id |
| Hooks.RemoveById | src/hooks/useDiagrams.ts:67-70 | a diagram is kept iff it was listed and does not carry the id |
| Hooks.RemoveByIdConcat | src/hooks/useDiagrams.ts:67-70 | filtering distributes over concatenation, so kept entries stay in order |
| Hooks.RemoveByIdAbsent | src/hooks/useDiagrams.ts:67-70 | a list without the id is left as it is |
| Hooks.RemoveDiagram | src/hooks/useDiagrams.ts:67-70 | deletes the document and keeps exactly the listed diagrams not carrying the id |
| Text.Trim | src/pages/DiagramEditor/DiagramEditorPage.tsx:125-130 | the trimmed e-mail is a slice of the input with only whitespace cut off on either side; it is empty iff the input is all whitespace, and otherwise starts and ends with a non-whitespace character |
| Text.TrimEndsOfTrimStart | src/pages/DiagramEditor/DiagramEditorPage.tsx:125-130 | dropping leading then trailing whitespace leaves nothing iff the input is all whitespace, and otherwise a string with non-whitespace ends |
| Text.TrimBothSplits | src/pages/DiagramEditor/DiagramEditorPage.tsx:125-130 | dropping leading then trailing whitespace keeps one slice of the input with only whitespace around it |
| Text.IndexOfFindsFirst | src/pages/DiagramEditor/DiagramEditorPage.tsx:65 | the search finds the first occurrence at or after the start, and reports none iff there is none |
| Text.ReplaceFirstWithoutOccurrence | src/pages/DiagramEditor/DiagramEditorPage.tsx:65 | replacing a pattern that does not occur leaves the string unchanged |
| Text.ReplaceFirstAtFirstOccurrence | src/pages/DiagramEditor/DiagramEditorPage.tsx:65 | replacing swaps only the first occurrence of the pattern and keeps the text before and after it |
| Text.ReplaceFirstOfPrefix | src/pages/DiagramEditor/DiagramEditorPage.tsx:65 | replacing a pattern that the string starts with replaces exactly that prefix |
| Text.DigitPrefixIsLongest | src/pages/DiagramEditor/DiagramEditorPage.tsx:65 | the digits parseInt reads form a prefix, and the character after them is not a digit |
| Text.ParseIntIgnoresTrailing | src/pages/DiagramEditor/DiagramEditorPage.tsx:65 | a run of digits followed by a non-digit, or by nothing, parses as the decimal value of the run |
| Text.ParseIntOfNegative | src/pages/DiagramEditor/DiagramEditorPage.tsx:65 | a minus sign followed by a run of digits parses as the negated value of the run |
| Text.ParseIntOfBlank | src/pages/DiagramEditor/DiagramEditorPage.tsx:65 | a blank string parses as NaN |
| Text.ParseIntOfNonNumeric | src/pages/DiagramEditor/DiagramEditorPage.tsx:65 | a string starting with a character that is not whitespace, a sign or a digit parses as NaN |
| Text.ParseIntOfNatToString | src/pages/DiagramEditor/DiagramEditorPage.tsx:65 | parsing the rendering of a natural number gives that number |
| Text.NatToString | src/pages/DiagramEditor/DiagramEditorPage.tsx:103 | a number renders as a non-empty run of decimal digits, with a leading zero only for 0 |
| Text.NatToStringInjective | src/pages/DiagramEditor/DiagramEditorPage.tsx:103 | distinct numbers render as distinct strings |
| Text.ToLowerAscii | src/services/users.ts:12 | keeps the length, maps each ASCII capital to the same letter in lower case, leaves no ASCII capital, and changes no other character |
| EditBuffer.NodeSuffixOfNodeIdFor | src/pages/DiagramEditor/DiagramEditorPage.tsx:64-68 | the number read back from an id `node-<n>` is n |
| EditBuffer.NodeSuffixReadsAfterPrefix | src/pages/DiagramEditor/DiagramEditorPage.tsx:65 | an id starting with `node-` reads as the number after that prefix; an id without `node-` anywhere is parsed whole |
| EditBuffer.NodeIdForInjective | src/pages/DiagramEditor/DiagramEditorPage.tsx:103 | distinct counter values give distinct node ids |
| EditBuffer.MaxSuffixFrom | src/pages/DiagramEditor/DiagramEditorPage.tsx:64-67 | the fold is at least its start and every number carried, and equals its start or one of those numbers |
| EditBuffer.Load | src/pages/DiagramEditor/DiagramEditorPage.tsx:60-70 | the buffer takes the diagram's graph and keeps the unsaved-changes flag; the counter is above every number an id carries, and is 1 or one past such a number, so it is one past the largest (0 when none) |
| EditBuffer.CounterIsNextUnique | src/pages/DiagramEditor/DiagramEditorPage.tsx:64-68 | the counter condition the load establishes admits exactly one counter for given nodes |
| EditBuffer.AddNode | src/pages/DiagramEditor/DiagramEditorPage.tsx:100-110 | a non-editor changes nothing; otherwise exactly one node `node-<counter>` of kind `default`, labelled "New Node", in the selected colour and at the given position is appended, the counter advances, the buffer is dirty, and the new id differs from every existing one |
| EditBuffer.AddNodeKeepsIdsUnique | src/pages/DiagramEditor/DiagramEditorPage.tsx:100-110 | adding a node keeps node ids distinct |
| EditBuffer.AddTwiceGivesDistinctIds | src/pages/DiagramEditor/DiagramEditorPage.tsx:103 | two added nodes get distinct ids, both new |
| EditBuffer.Relabel | src/pages/DiagramEditor/DiagramEditorPage.tsx:52-56 | nodes with the id get the new label and keep everything else; other nodes are unchanged |
| EditBuffer.HandleLabelChange | src/pages/DiagramEditor/DiagramEditorPage.tsx:51-58 | relabels exactly the nodes with the id, each keeping its kind, position, colour and id, leaves other nodes, edges and counter as they were, and marks the buffer changed |
| EditBuffer.HandleLabelChangeIdempotent | src/pages/DiagramEditor/DiagramEditorPage.tsx:51-58 | relabelling twice with the same label equals relabelling once |
| EditBuffer.OnNodesChange | src/pages/DiagramEditor/DiagramEditorPage.tsx:77-81 | a non-editor changes nothing; otherwise the library's result replaces the nodes and the buffer is dirty |
| EditBuffer.OnEdgesChange | src/pages/DiagramEditor/DiagramEditorPage.tsx:83-87 | a non-editor changes nothing; otherwise the library's result replaces the edges and the buffer is dirty |
| EditBuffer.OnConnect | src/pages/DiagramEditor/DiagramEditorPage.tsx:89-98 | a non-editor changes nothing; otherwise an animated smooth-step edge with the accent stroke of width 2 is added and the buffer is dirty |
| LabelEditor.StartEditing | src/pages/DiagramEditor/EditableNode.tsx:9-12 | editing starts with the input holding the current label |
| LabelEditor.Type | src/pages/DiagramEditor/EditableNode.tsx:50 | typing replaces the input text and keeps the mode |
| LabelEditor.SaveLabel | src/pages/DiagramEditor/EditableNode.tsx:14-19 | calls back with the node id and text iff a callback exists and the text differs from the label; always leaves editing |
| LabelEditor.CancelEditing | src/pages/DiagramEditor/EditableNode.tsx:21-23 | leaves editing and never calls back |
| LabelEditor.HandleKeyDown | src/pages/DiagramEditor/EditableNode.tsx:25-28 | Enter saves, Escape cancels, any other key changes nothing |
| LabelEditor.StartThenEnterCallsNothing | src/pages/DiagramEditor/EditableNode.tsx:9-28 | starting to edit and pressing Enter straight away makes no call |
| LabelEditor.EscapeDiscardsTyping | src/pages/DiagramEditor/EditableNode.tsx:21-28 | typing then Escape makes no call and leaves editing; the next edit starts again from the current label |
| LabelEditor.EditThenEnterRelabels | src/pages/DiagramEditor/EditableNode.tsx:9-28 | typing a different text then Enter calls back with exactly that text |
| EditorPage.Sync | src/pages/DiagramEditor/DiagramEditorPage.tsx:60-70 | with a loaded diagram the buffer holds its graph and the counter is one past the largest number an id carries (1 when none); without one the buffer is kept; the flag, session, share form and colour are never touched |
| EditorPage.OpenPage | src/pages/DiagramEditor/DiagramEditorPage.tsx:36-70 | the opened page is clean, with the share form closed, its e-mail empty, no error shown, viewer preselected and the first palette colour; the session is the reloaded one; the buffer holds the loaded diagram's graph with the counter one past the largest id number, or is the initial buffer when nothing loaded |
| EditorPage.UnlistedUserCanRead | src/hooks/useDiagrams.ts:101-127 | a user with no role still loads the diagram and its graph, but cannot edit |
| EditorPage.HandleSave | src/pages/DiagramEditor/DiagramEditorPage.tsx:112-123 | nothing happens without edit permission or unsaved changes; a failed save changes nothing; a successful one stores the buffer's graph, takes the hook's updated session, keeps the share form and colour, and leaves the same graph clean with the counter recomputed from it |
| EditorPage.SaveThenReopen | src/pages/DiagramEditor/DiagramEditorPage.tsx:112-123 | after a save, reopening the diagram shows the buffer's graph |
| EditorPage.HandleShare | src/pages/DiagramEditor/DiagramEditorPage.tsx:125-138 | a blank e-mail does nothing; otherwise the trimmed e-mail is shared; failure shows the thrown message, success closes and clears the form, keeps the picked role, the colour and the unsaved-changes flag, and reloads the buffer's graph from the store |
| EditorPage.ShareReloadsBuffer | src/pages/DiagramEditor/DiagramEditorPage.tsx:125-138 | after a successful share the buffer holds the stored graph while the unsaved-changes flag is kept |
| EditorPage.HandleRevokeAccess | src/pages/DiagramEditor/DiagramEditorPage.tsx:140-142 | failures are swallowed and change nothing; success takes the hook's reloaded session, keeps the share form, colour and unsaved-changes flag, and replaces the buffer's graph with the stored one |
| EditorPage.PropsFor | src/pages/DiagramEditor/DiagramEditorPage.tsx:72-75 | every node gets the relabel callback, whatever the role |
| EditorPage.OnRelabel | src/pages/DiagramEditor/DiagramEditorPage.tsx:51-58 | a callback call relabels the buffer; no call leaves the page |
| EditorPage.LabelEditReachesBuffer | src/pages/DiagramEditor/EditableNode.tsx:14-19 | saving an unchanged label leaves the page untouched; a changed one relabels that node and dirties the buffer |
| EditorPage.ViewerRelabelStaysLocal | src/pages/DiagramEditor/DiagramEditorPage.tsx:51-58 | a viewer's relabel changes the buffer and dirties it, but the viewer's save writes nothing |
| EditorPage.ViewerGesturesAreNoOps | src/pages/DiagramEditor/DiagramEditorPage.tsx:77-110 | without edit permission, node and edge changes, connecting and adding a node leave the buffer unchanged |
| Login.Utf16Length | src/pages/Login/LoginPage.tsx:25 | the code-unit length lies between the character count and twice it |
| Login.Utf16LengthConcat | src/pages/Login/LoginPage.tsx:25 | code-unit lengths add up over concatenation |
| Login.Utf16LengthOfChar | src/pages/Login/LoginPage.tsx:25 | one character is two code units above U+FFFF and one otherwise |
| Login.Utf16LengthOfBmp | src/pages/Login/LoginPage.tsx:25 | a string of basic-multilingual-plane characters has one code unit per character |
| Login.ValidateForm | src/pages/Login/LoginPage.tsx:21-28 | each message appears exactly when its check is the first to fail: blank e-mail, empty password, password under six units, differing confirmation in sign-up mode |
| Login.ValidateFormAcceptsExactly | src/pages/Login/LoginPage.tsx:21-28 | validation passes iff the e-mail is not blank, the password has at least six units and, in sign-up mode, the confirmation matches |
| Login.HandleSubmit | src/pages/Login/LoginPage.tsx:30-45 | the form error is the validation result; an invalid form makes no call; a valid one signs in or up with the e-mail as typed, the password and the role; navigation iff a call succeeded |
| Login.SignInIgnoresConfirmation | src/pages/Login/LoginPage.tsx:36-40 | in sign-in mode the confirmation field does not affect the call or the navigation |
| Login.ToggleMode | src/pages/Login/LoginPage.tsx:47-52 | flips the mode, clears both errors and the confirmation, and keeps e-mail, password and role |
| Login.ToggleModeTwice | src/pages/Login/LoginPage.tsx:47-52 | switching twice restores the form without errors or confirmation |
| Login.DisplayError | src/pages/Login/LoginPage.tsx:54 | a non-empty form error is shown first, else a non-empty authentication error, else nothing |
| Login.InvalidSubmitShowsValidationMessage | src/pages/Login/LoginPage.tsx:30-54 | after an invalid submit exactly the validation message is shown, with no call and no navigation |
| Login.SignUpDefaultsToEditor | src/pages/Login/LoginPage.tsx:17-37 | signing up straight after switching from the initial form passes the editor role |
| Scenarios.LoadSkipsToAfterLargest | src/pages/DiagramEditor/DiagramEditorPage.tsx:60-110 | loading `node-1`, `node-3` and `start` numbers the next node `node-4` |
| Scenarios.AliceSharesWithBob | src/hooks/useDiagrams.ts:147-159 | an owner shares with a capitalised, padded e-mail: the viewer entry is added under the trimmed, not lower-cased, e-mail and the dialog closes |
| Scenarios.ShareWithViewer | src/pages/DiagramEditor/DiagramEditorPage.tsx:100-123 | the viewer's page resolves to viewer, adding a node changes nothing, and the viewer's save writes nothing |
| Scenarios.BuildSaveDelete | src/pages/DiagramEditor/DiagramEditorPage.tsx:100-123 | two added nodes and a connection are saved as `node-1` and `node-2`; after deletion the diagram reads as absent |
| Scenarios.SignUpNeedsSixCharacters | src/pages/Login/LoginPage.tsx:21-45 | five characters are refused with the length message; six sign up as editor and navigate |

## Left out

- Loading flags (`loading`, `isSaving`, `shareLoading`) and the load-error state of the hooks: they only drive rendering. Store reads do not fail in the model.
- Asynchrony: every handler is one atomic step. Interleavings such as two overlapping saves, or a reload racing a save, are not modelled.
- Rendering, navigation targets other than the dashboard flag, the theme, the password-visibility toggle, the colour picker and the share dialog's open/cancel buttons: these are plain state setters with no logic.
- The authentication service and the Firestore client: the outcome of a sign-in or sign-up is a parameter, and the document store is a map.
- Server timestamps versus client dates: one `now` stands for both, so their difference is not modelled.
- Node positions: `Math.random()` placement becomes a position parameter.
- The graph library's change appliers are parameters. Effects such as dimension changes marking the buffer dirty depend on them and are not modelled.
- An absent `description` is an `Option`. How the store treats an `undefined` field on write is not modelled.
- Text.ToLowerAscii: lowers ASCII letters only. JavaScript's `toLowerCase` also maps non-ASCII letters.
- Login.Utf16Length: counts code units from Unicode scalar values. Unpaired surrogates cannot occur in Dafny strings.
- EditBuffer.Load: the counter is an unbounded integer. JavaScript numbers lose precision above 2^53 and `parseInt` of a very long digit run is a float. Such ids are not modelled.
- Text.ParseInt: the function carries no contract of its own. What it reads is stated on Text.ParseIntIgnoresTrailing, Text.ParseIntOfNegative, Text.ParseIntOfBlank, Text.ParseIntOfNonNumeric and Text.ParseIntOfNatToString.
- EditBuffer.NodeSuffix: the function carries no contract of its own. Its reading of ids is stated on EditBuffer.NodeSuffixReadsAfterPrefix and EditBuffer.NodeSuffixOfNodeIdFor.
- Repository.Query: the enumeration `order` is assumed to name each document once, as a store query does. With a repeated id a document would be listed twice; distinct listings are stated under that assumption on Repository.QueryDistinct and Repository.GetUserDiagramsDistinct. The contract does not state that the listing follows the order of `order`; a store query gives no order either.
- Hooks.Message: carries no contract. The strings are constants in its body. Which failure each operation throws is stated on Hooks.SaveContent, Hooks.SaveInfo, Hooks.ShareWithUser, Hooks.RevokeAccess, Hooks.CreateNewDiagram and Repository.ShareDiagram, and the page's display of the message on EditorPage.HandleShare.
- Text.ReplaceFirst: carries no contract of its own. What it replaces is stated on Text.ReplaceFirstWithoutOccurrence, Text.ReplaceFirstAtFirstOccurrence and Text.ReplaceFirstOfPrefix.
- Text.IndexOf: its own contract states only bounds. The first-occurrence property is stated on Text.IndexOfFindsFirst.
- Access-map keys that collide with object prototype properties (such as `constructor`) are ordinary map keys here.
- A node's `onBlur` firing after unmount is not modelled.
- The dashboard, profile pages and route protection are not part of this model.

=== FILE: buffer.dfy ===
/** The edit buffer of the diagram editor page: the working copy of the
    graph, the unsaved-changes flag and the counter that numbers new nodes.
    The graph library's change appliers are parameters of the gestures that
    use them; the model checks only what happens around them. */
module EditBuffer {
  import opened Wrappers
  import opened DiagramTypes
  import opened Text

  const NodeIdPrefix: string := "node-"
  const NewNodeLabel: string := "New Node"
  const NewNodeKind: string := "default"

  /** The node colours offered by the editor; the first is preselected. */
  const Palette: seq<string> := ["#6366f1", "#8b5cf6", "#06b6d4", "#10b981", "#f59e0b", "#ef4444", "#ec4899"]

  /** The style every edge drawn by a connect gesture gets. */
  const ConnectStyle: EdgeStyle := EdgeStyle(Some("smoothstep"), true, Some("var(--accent-primary)"), Some(2))

  /** What a connect gesture asks the graph library to add. */
  datatype EdgeSpec = EdgeSpec(connection: Connection, style: EdgeStyle)

  /** The working copy: nodes, edges, whether a change has been accepted
      since the last save, and the number the next added node gets. */
  datatype Buffer = Buffer(nodes: seq<Node>, edges: seq<Edge>, hasChanges: bool, nextNodeId: nat)

  /** The buffer before any diagram has loaded. */
  const Initial: Buffer := Buffer([], [], false, 1)

  /** The number a node id carries: `parseInt(id.replace('node-', ''), 10)`,
      `None` for `NaN`. */
  function NodeSuffix(id: string): Option<int> {
    ParseInt(ReplaceFirst(id, NodeIdPrefix, ""))
  }

  /** An id starting with `node-` reads as the number after it; an id with
      no `node-` anywhere reads as a whole. */
  lemma NodeSuffixReadsAfterPrefix(id: string)
    ensures OccursAt(id, NodeIdPrefix, 0) ==> NodeSuffix(id) == ParseInt(id[|NodeIdPrefix|..])
    ensures (forall j :: 0 <= j ==> !OccursAt(id, NodeIdPrefix, j)) ==> NodeSuffix(id) == ParseInt(id)
  {
    IndexOfFindsFirst(id, NodeIdPrefix, 0);
    assert OccursAt(id, NodeIdPrefix, 0) ==> id[..0] + "" + id[|NodeIdPrefix|..] == id[|NodeIdPrefix|..];
  }

  /** The id an added node gets: `node-<n>`. */
  function NodeIdFor(n: nat): string {
    NodeIdPrefix + NatToString(n)
  }

  /** The id given to an added node carries exactly its number. */
  lemma NodeSuffixOfNodeIdFor(n: nat)
    ensures NodeSuffix(NodeIdFor(n)) == Some(n)
  {
    ReplaceFirstOfPrefix(NodeIdPrefix, NatToString(n), "");
    assert "" + NatToString(n) == NatToString(n);
    ParseIntOfNatToString(n);
  }

  /** Distinct numbers give distinct node ids. */
  lemma NodeIdForInjective(a: nat, b: nat)
    requires NodeIdFor(a) == NodeIdFor(b)
    ensures a == b
  {
    NodeSuffixOfNodeIdFor(a);
    NodeSuffixOfNodeIdFor(b);
  }

  /** The left fold `reduce((max, node) => isNaN(n) ? max : Math.max(max, n), acc)`
      over the node ids: at least `acc` and every number carried, and equal
      to `acc` or to one of those numbers. */
  function MaxSuffixFrom(nodes: seq<Node>, acc: int): (m: int)
    ensures m >= acc
    ensures forall i :: 0 <= i < |nodes| && NodeSuffix(nodes[i].id).Some? ==> NodeSuffix(nodes[i].id).value <= m
    ensures m == acc || exists i :: 0 <= i < |nodes| && NodeSuffix(nodes[i].id) == Some(m)
  {
    if nodes == [] then acc
    else
      var step := match NodeSuffix(nodes[0].id)
                  case None => acc
                  case Some(n) => if n > acc then n else acc;
      var m := MaxSuffixFrom(nodes[1..], step);
      assert forall i :: 1 <= i < |nodes| ==> nodes[i] == nodes[1..][i - 1];
      m
  }

  /** Every node id that carries a number carries one below the counter, so
      the next added id is new. */
  predicate CounterAhead(b: Buffer) {
    forall i :: 0 <= i < |b.nodes| && NodeSuffix(b.nodes[i].id).Some? ==> NodeSuffix(b.nodes[i].id).value < b.nextNodeId
  }

  /** The counter is exactly one more than the largest number a node id
      carries, or 1 when no id carries one (the fold starts from 0). */
  predicate CounterIsNext(b: Buffer) {
    && b.nextNodeId >= 1
    && CounterAhead(b)
    && (b.nextNodeId == 1 || exists i :: 0 <= i < |b.nodes| && NodeSuffix(b.nodes[i].id) == Some(b.nextNodeId - 1))
  }

  /** `CounterIsNext` pins the counter down: two buffers with the same nodes
      that both satisfy it have the same counter. */
  lemma CounterIsNextUnique(b1: Buffer, b2: Buffer)
    requires b1.nodes == b2.nodes && CounterIsNext(b1) && CounterIsNext(b2)
    ensures b1.nextNodeId == b2.nextNodeId
  {
  }

  /** The counter's relation to the nodes does not involve the
      unsaved-changes flag. */
  lemma CounterIsNextIgnoresFlag(b: Buffer, flag: bool)
    requires CounterIsNext(b)
    ensures CounterIsNext(b.(hasChanges := flag))
  {
    assert b.(hasChanges := flag).nodes == b.nodes;
  }

  /** No two nodes share an id. */
  predicate UniqueIds(nodes: seq<Node>) {
    forall i, j :: 0 <= i < j < |nodes| ==> nodes[i].id != nodes[j].id
  }

  /** The load effect: the buffer takes the diagram's nodes and edges, and
      the counter becomes one more than the largest number carried by a
      node id (at least 0; ids that carry none are ignored). The
      unsaved-changes flag is left as it was. */
  function Load(b: Buffer, d: Diagram): (r: Buffer)
    ensures r.nodes == d.nodes && r.edges == d.edges && r.hasChanges == b.hasChanges
    ensures CounterIsNext(r)
  {
    Buffer(d.nodes, d.edges, b.hasChanges, MaxSuffixFrom(d.nodes, 0) + 1)
  }

  /** `addNode`: ignored without edit permission; otherwise appends one node
      `node-<counter>` labelled "New Node" in the selected colour, advances
      the counter and marks the buffer changed. The new id is not the id of
      any node already there, loaded or added. */
  function AddNode(b: Buffer, canEdit: bool, color: string, position: Position): (r: Buffer)
    ensures !canEdit ==> r == b
    ensures canEdit ==>
      && |r.nodes| == |b.nodes| + 1 && r.nodes[..|b.nodes|] == b.nodes
      && r.edges == b.edges && r.hasChanges && r.nextNodeId == b.nextNodeId + 1
    ensures canEdit ==>
      var n := r.nodes[|b.nodes|];
      && n.id == NodeIdFor(b.nextNodeId) && n.kind == Some(NewNodeKind)
      && n.data == NodeData(NewNodeLabel, Some(color)) && n.position == position
    ensures canEdit && CounterAhead(b) ==> CounterAhead(r)
    ensures canEdit && CounterAhead(b) ==> forall i :: 0 <= i < |b.nodes| ==> b.nodes[i].id != r.nodes[|b.nodes|].id
  {
    if !canEdit then b
    else
      var node := Node(NodeIdFor(b.nextNodeId), Some(NewNodeKind), position, NodeData(NewNodeLabel, Some(color)));
      NodeSuffixOfNodeIdFor(b.nextNodeId);
      var r := Buffer(b.nodes + [node], b.edges, true, b.nextNodeId + 1);
      assert forall i :: 0 <= i < |b.nodes| ==> r.nodes[i] == b.nodes[i];
      r
  }

  /** Adding a node to a buffer whose ids are distinct and below the counter
      keeps them distinct. */
  lemma AddNodeKeepsIdsUnique(b: Buffer, color: string, position: Position)
    requires CounterAhead(b) && UniqueIds(b.nodes)
    ensures UniqueIds(AddNode(b, true, color, position).nodes)
  {
  }

  /** Two nodes added one after the other get distinct ids, both new. */
  lemma AddTwiceGivesDistinctIds(b: Buffer, c1: string, p1: Position, c2: string, p2: Position)
    requires CounterAhead(b)
    ensures var b1 := AddNode(b, true, c1, p1);
      var b2 := AddNode(b1, true, c2, p2);
      && |b2.nodes| == |b.nodes| + 2
      && b2.nodes[|b.nodes|].id != b2.nodes[|b.nodes| + 1].id
      && forall i :: 0 <= i < |b.nodes| ==> b2.nodes[i].id != b2.nodes[|b.nodes|].id && b2.nodes[i].id != b2.nodes[|b.nodes| + 1].id
  {
  }

  /** The nodes with the label of every node `nodeId` replaced by `newLabel`. */
  function Relabel(nodes: seq<Node>, nodeId: string, newLabel: string): (r: seq<Node>)
    ensures |r| == |nodes|
    ensures forall i :: 0 <= i < |nodes| && nodes[i].id != nodeId ==> r[i] == nodes[i]
    ensures forall i :: 0 <= i < |nodes| && nodes[i].id == nodeId ==>
      r[i] == nodes[i].(data := nodes[i].data.(labelText := newLabel))
  {
    seq(|nodes|, i requires 0 <= i < |nodes| =>
      if nodes[i].id == nodeId then nodes[i].(data := nodes[i].data.(labelText := newLabel)) else nodes[i])
  }

  /** `handleLabelChange(nodeId, newLabel)`: relabels the node with that id,
      changes nothing else, and marks the buffer changed; it makes no role
      check and marks the buffer changed even when the label is the same. */
  function HandleLabelChange(b: Buffer, nodeId: string, newLabel: string): (r: Buffer)
    ensures r.hasChanges && r.edges == b.edges && r.nextNodeId == b.nextNodeId
    ensures |r.nodes| == |b.nodes|
    ensures forall i :: 0 <= i < |b.nodes| ==> r.nodes[i].id == b.nodes[i].id
    ensures forall i :: 0 <= i < |b.nodes| && b.nodes[i].id == nodeId ==>
      r.nodes[i] == b.nodes[i].(data := b.nodes[i].data.(labelText := newLabel))
    ensures forall i :: 0 <= i < |b.nodes| && b.nodes[i].id != nodeId ==> r.nodes[i] == b.nodes[i]
    ensures CounterAhead(b) ==> CounterAhead(r)
  {
    b.(nodes := Relabel(b.nodes, nodeId, newLabel), hasChanges := true)
  }

  /** Relabelling twice with the same label is relabelling once. */
  lemma HandleLabelChangeIdempotent(b: Buffer, nodeId: string, newLabel: string)
    ensures HandleLabelChange(HandleLabelChange(b, nodeId, newLabel), nodeId, newLabel) == HandleLabelChange(b, nodeId, newLabel)
  {
  }

  /** `onNodesChange`: ignored without edit permission; otherwise the graph
      library applies the change batch to the nodes and the buffer is
      marked changed. */
  function OnNodesChange<C>(b: Buffer, canEdit: bool, changes: C, apply: (C, seq<Node>) -> seq<Node>): (r: Buffer)
    ensures !canEdit ==> r == b
    ensures canEdit ==> r.hasChanges && r.nodes == apply(changes, b.nodes) && r.edges == b.edges && r.nextNodeId == b.nextNodeId
  {
    if !canEdit then b else b.(nodes := apply(changes, b.nodes), hasChanges := true)
  }

  /** `onEdgesChange`: the same, for the edges. */
  function OnEdgesChange<C>(b: Buffer, canEdit: bool, changes: C, apply: (C, seq<Edge>) -> seq<Edge>): (r: Buffer)
    ensures !canEdit ==> r == b
    ensures canEdit ==> r.hasChanges && r.edges == apply(changes, b.edges) && r.nodes == b.nodes && r.nextNodeId == b.nextNodeId
  {
    if !canEdit then b else b.(edges := apply(changes, b.edges), hasChanges := true)
  }

  /** `onConnect`: ignored without edit permission; otherwise the graph
      library adds an edge for the connection, styled as a smooth-step
      animated edge, and the buffer is marked changed. */
  function OnConnect(b: Buffer, canEdit: bool, connection: Connection, addEdge: (EdgeSpec, seq<Edge>) -> seq<Edge>): (r: Buffer)
    ensures !canEdit ==> r == b
    ensures canEdit ==> r.hasChanges && r.edges == addEdge(EdgeSpec(connection, ConnectStyle), b.edges)
                        && r.nodes == b.nodes && r.nextNodeId == b.nextNodeId
  {
    if !canEdit then b else b.(edges := addEdge(EdgeSpec(connection, ConnectStyle), b.edges), hasChanges := true)
  }
}

=== FILE: editor.dfy ===
/** The diagram editor page: it owns a `useDiagram` session and an edit
    buffer, reloads the buffer whenever the session's diagram is replaced,
    saves the buffer on request, and runs the share dialog. */
module EditorPage {
  import opened Wrappers
  import opened DiagramTypes
  import opened Roles
  import opened Repository
  import opened Users
  import opened Text
  import opened Hooks
  import opened EditBuffer
  import LabelEditor

  /** The share dialog: whether it is open, the e-mail typed, the role
      picked (viewer by default) and the last error shown. */
  datatype ShareForm = ShareForm(open: bool, email: string, role: Role, error: Option<string>)

  /** The page state. */
  datatype Page = Page(session: Session, buffer: Buffer, share: ShareForm, selectedColor: string)

  /** The page and the store after one handler. */
  datatype PageStep = PageStep(store: Store, page: Page)

  /** The load effect, run whenever the session's diagram object is replaced:
      with a diagram, the buffer is reloaded from it. */
  function Sync(p: Page): (r: Page)
    ensures r.session == p.session && r.share == p.share && r.selectedColor == p.selectedColor
    ensures r.buffer.hasChanges == p.buffer.hasChanges
    ensures p.session.diagram.None? ==> r.buffer == p.buffer
    ensures p.session.diagram.Some? ==>
      r.buffer.nodes == p.session.diagram.value.nodes && r.buffer.edges == p.session.diagram.value.edges && CounterIsNext(r.buffer)
  {
    if p.session.diagram.Some? then p.(buffer := Load(p.buffer, p.session.diagram.value)) else p
  }

  /** Opening the page: the session loads the diagram and the buffer is
      seeded from it, clean. */
  function OpenPage(store: Store, diagramId: Option<DiagramId>, user: Option<UserDocument>, now: Timestamp): (r: Page)
    ensures !r.buffer.hasChanges && !r.share.open && r.share.role == Viewer && r.selectedColor == Palette[0]
    ensures r.share.email == "" && r.share.error.None?
    ensures r.session == RefreshDiagram(store, Session(diagramId, user, None), now)
    ensures r.session.diagram.Some? ==>
      r.buffer.nodes == r.session.diagram.value.nodes && r.buffer.edges == r.session.diagram.value.edges && CounterIsNext(r.buffer)
    ensures r.session.diagram.None? ==> r.buffer == Initial
  {
    var session := RefreshDiagram(store, Session(diagramId, user, None), now);
    Sync(Page(session, Initial, ShareForm(false, "", Viewer, None), Palette[0]))
  }

  /** Reading is not gated: a signed-in user with no role on a diagram still
      opens it, with its graph in the buffer, but cannot edit it. */
  lemma UnlistedUserCanRead(store: Store, id: DiagramId, user: UserDocument, now: Timestamp)
    requires id != "" && id in store
    requires user.uid != store[id].ownerId && user.uid !in ReadAccess(store[id])
    ensures var p := OpenPage(store, Some(id), Some(user), now);
      && p.session.diagram == GetDiagram(store, id, now)
      && p.buffer.nodes == GetDiagram(store, id, now).value.nodes
      && UserRole(p.session).None? && !CanEdit(p.session)
  {
  }

  /** `handleSave`: nothing happens without edit permission or without
      unsaved changes. Otherwise the whole buffer is saved: on success the
      store holds the buffer's graph and the buffer is clean with the same
      graph; on failure nothing changes and the buffer stays dirty. */
  function HandleSave(store: Store, p: Page, now: Timestamp): (r: PageStep)
    ensures !CanEdit(p.session) || !p.buffer.hasChanges ==> r == PageStep(store, p)
    ensures CanEdit(p.session) && p.buffer.hasChanges ==>
      var e := SaveContent(store, p.session, p.buffer.nodes, p.buffer.edges, now);
      && (e.error.Some? ==> r == PageStep(store, p))
      && (e.error.None? ==>
            && r.store == e.store
            && r.page.session == e.session && r.page.share == p.share && r.page.selectedColor == p.selectedColor
            && !r.page.buffer.hasChanges
            && r.page.buffer.nodes == p.buffer.nodes && r.page.buffer.edges == p.buffer.edges
            && CounterIsNext(r.page.buffer))
  {
    if !CanEdit(p.session) || !p.buffer.hasChanges then PageStep(store, p)
    else
      var e := SaveContent(store, p.session, p.buffer.nodes, p.buffer.edges, now);
      if e.error.Some? then PageStep(store, p)
      else
        var synced := Sync(p.(session := e.session));
        CounterIsNextIgnoresFlag(synced.buffer, false);
        PageStep(e.store, synced.(buffer := synced.buffer.(hasChanges := false)))
  }

  /** After a successful save, reopening the diagram shows the graph that was
      in the buffer. */
  lemma SaveThenReopen(store: Store, p: Page, now: Timestamp, later: Timestamp)
    requires CanEdit(p.session) && p.buffer.hasChanges && HasId(p.session) && p.session.diagramId.value in store
    ensures var r := HandleSave(store, p, now);
      var reopened := OpenPage(r.store, p.session.diagramId, p.session.user, later);
      && !r.page.buffer.hasChanges
      && reopened.buffer.nodes == p.buffer.nodes && reopened.buffer.edges == p.buffer.edges
  {
  }

  /** `handleShare`: a blank e-mail does nothing. Otherwise the trimmed
      e-mail is shared with the picked role; on success the dialog closes
      and clears, and the reloaded diagram replaces the buffer's graph; on
      failure the error message is shown and nothing else changes. */
  function HandleShare(store: Store, users: seq<UserDocument>, p: Page, now: Timestamp): (r: PageStep)
    ensures IsBlank(p.share.email) ==> r == PageStep(store, p)
    ensures !IsBlank(p.share.email) ==>
      var e := ShareWithUser(store, users, p.session, Trim(p.share.email), p.share.role, now);
      && r.store == e.store
      && (e.error.Some? ==> r.page == p.(share := p.share.(error := Some(Message(e.error.value)))))
      && (e.error.None? ==>
            && r.page.session == e.session
            && !r.page.share.open && r.page.share.email == "" && r.page.share.error.None?
            && r.page.share.role == p.share.role && r.page.selectedColor == p.selectedColor
            && r.page.buffer.hasChanges == p.buffer.hasChanges
            && var id := p.session.diagramId.value;
               && id in r.store
               && r.page.buffer.nodes == GetDiagram(r.store, id, now).value.nodes
               && r.page.buffer.edges == GetDiagram(r.store, id, now).value.edges
               && CounterIsNext(r.page.buffer))
  {
    if IsBlank(p.share.email) then PageStep(store, p)
    else
      var e := ShareWithUser(store, users, p.session, Trim(p.share.email), p.share.role, now);
      match e.error
      case Some(f) => PageStep(store, p.(share := p.share.(error := Some(Message(f)))))
      case None =>
        PageStep(e.store, Sync(p.(session := e.session, share := p.share.(open := false, email := "", error := None))))
  }

  /** A successful share reloads the buffer's graph from the store while the
      unsaved-changes flag is kept: edits not yet saved are dropped from the
      buffer even though the page still reports unsaved changes. */
  lemma ShareReloadsBuffer(store: Store, users: seq<UserDocument>, p: Page, now: Timestamp)
    requires !IsBlank(p.share.email)
    requires ShareWithUser(store, users, p.session, Trim(p.share.email), p.share.role, now).error.None?
    ensures var r := HandleShare(store, users, p, now);
      var id := p.session.diagramId.value;
      && id in r.store
      && r.page.buffer.nodes == GetDiagram(r.store, id, now).value.nodes
      && r.page.buffer.edges == GetDiagram(r.store, id, now).value.edges
      && r.page.buffer.hasChanges == p.buffer.hasChanges
  {
  }

  /** `handleRevokeAccess`: failures are swallowed and change nothing; on
      success the entry is gone and the reloaded diagram replaces the
      buffer's graph. */
  function HandleRevokeAccess(store: Store, p: Page, userId: UserId, now: Timestamp): (r: PageStep)
    ensures var e := RevokeAccess(store, p.session, userId, now);
      && r.store == e.store
      && (e.error.Some? ==> r.page == p)
      && (e.error.None? ==>
            && r.page.session == e.session && r.page.share == p.share && r.page.selectedColor == p.selectedColor
            && r.page.buffer.hasChanges == p.buffer.hasChanges
            && var id := p.session.diagramId.value;
               && id in r.store
               && r.page.buffer.nodes == GetDiagram(r.store, id, now).value.nodes
               && r.page.buffer.edges == GetDiagram(r.store, id, now).value.edges
               && CounterIsNext(r.page.buffer))
  {
    var e := RevokeAccess(store, p.session, userId, now);
    if e.error.Some? then PageStep(store, p) else PageStep(e.store, Sync(p.(session := e.session)))
  }

  /** Every node on the page gets the relabel callback, whatever the role. */
  function PropsFor(n: Node): (r: LabelEditor.NodeProps)
    ensures r.id == n.id && r.currentLabel == n.data.labelText && r.hasCallback
  {
    LabelEditor.NodeProps(n.id, n.data.labelText, true)
  }

  /** The relabel callback reaching the page: `handleLabelChange`, with no
      role check. */
  function OnRelabel(p: Page, call: Option<LabelEditor.Relabel>): (r: Page)
    ensures call.None? ==> r == p
    ensures call.Some? ==> r == p.(buffer := HandleLabelChange(p.buffer, call.value.nodeId, call.value.newLabel))
  {
    match call
    case None => p
    case Some(c) => p.(buffer := HandleLabelChange(p.buffer, c.nodeId, c.newLabel))
  }

  /** Saving a node's label unchanged leaves the page untouched, so the
      buffer does not become dirty; saving a different label relabels that
      node and marks the buffer changed. */
  lemma LabelEditReachesBuffer(p: Page, e: LabelEditor.Editor, i: nat)
    requires i < |p.buffer.nodes|
    ensures var n := p.buffer.nodes[i];
      var r := OnRelabel(p, LabelEditor.SaveLabel(e, PropsFor(n)).call);
      && (e.text == n.data.labelText ==> r == p)
      && (e.text != n.data.labelText ==> r.buffer.hasChanges && r.buffer.nodes[i].data.labelText == e.text)
  {
  }

  /** A viewer can still relabel a node in the buffer, which then reports
      unsaved changes, but saving it is a no-op and the store is untouched. */
  lemma ViewerRelabelStaysLocal(store: Store, p: Page, e: LabelEditor.Editor, i: nat, now: Timestamp)
    requires UserRole(p.session) == Some(Viewer)
    requires i < |p.buffer.nodes| && e.text != p.buffer.nodes[i].data.labelText
    ensures var r := OnRelabel(p, LabelEditor.SaveLabel(e, PropsFor(p.buffer.nodes[i])).call);
      && r.buffer.hasChanges && r.buffer.nodes[i].data.labelText == e.text
      && HandleSave(store, r, now) == PageStep(store, r)
  {
  }

  /** Without edit permission every graph gesture leaves the buffer as it was. */
  lemma ViewerGesturesAreNoOps<C, D>(p: Page, nodeChanges: C, applyNodes: (C, seq<Node>) -> seq<Node>,
                                     edgeChanges: D, applyEdges: (D, seq<Edge>) -> seq<Edge>,
                                     connection: Connection, addEdge: (EdgeSpec, seq<Edge>) -> seq<Edge>, position: Position)
    requires !CanEdit(p.session)
    ensures OnNodesChange(p.buffer, CanEdit(p.session), nodeChanges, applyNodes) == p.buffer
    ensures OnEdgesChange(p.buffer, CanEdit(p.session), edgeChanges, applyEdges) == p.buffer
    ensures OnConnect(p.buffer, CanEdit(p.session), connection, addEdge) == p.buffer
    ensures AddNode(p.buffer, CanEdit(p.session), p.selectedColor, position) == p.buffer
  {
  }
}

=== FILE: hooks.dfy ===
/** The hooks through which pages reach the repository: `useDiagram` for one
    open diagram (role resolution, edit permission and the gated writes) and
    `useDiagrams` for the dashboard list. Every hook operation is one atomic
    step from (store, hook state) to (store, hook state, error). */
module Hooks {
  import opened Wrappers
  import opened DiagramTypes
  import opened Roles
  import opened Repository
  import opened Users

  /** What a hook operation throws. */
  datatype Failure =
    | CannotSave
    | CannotShare
    | CannotRevoke
    | UserNotFound
    | NotLoggedIn
    | StoreFailure(cause: StoreError)

  /** The message carried by each error. */
  function Message(f: Failure): string {
    match f
    case CannotSave => "Cannot save: no permission or diagram not found"
    case CannotShare => "Cannot share: no permission or diagram not found"
    case CannotRevoke => "Cannot revoke access: no permission or diagram not found"
    case UserNotFound => "User not found with that email"
    case NotLoggedIn => "User must be logged in to create a diagram"
    case StoreFailure(DiagramNotFound) => "Diagram not found"
    // a shortened form of the store's own error text, not a string of the
    // hooks
    case StoreFailure(NoDocumentToUpdate) => "No document to update"
  }

  // ---------------------------------------------------------------------
  // useDiagram
  // ---------------------------------------------------------------------

  /** The state of `useDiagram`: the route's diagram id, the signed-in
      user's profile, and the diagram as last loaded. */
  datatype Session = Session(diagramId: Option<DiagramId>, user: Option<UserDocument>, diagram: Option<Diagram>)

  /** The hook has a usable id: JavaScript treats `undefined` and `""` alike. */
  predicate HasId(s: Session) {
    s.diagramId.Some? && s.diagramId.value != ""
  }

  /** `userRole`: the signed-in user's role on the loaded diagram, `None`
      while either is missing. */
  function UserRole(s: Session): (r: Option<Role>)
    ensures r.Some? ==> s.diagram.Some? && s.user.Some?
    ensures s.diagram.Some? && s.user.Some? ==>
      (r.Some? <==> (s.user.value.uid == s.diagram.value.ownerId || s.user.value.uid in s.diagram.value.access))
    ensures r == Some(Viewer) <==>
      (&& s.diagram.Some? && s.user.Some? && s.user.value.uid != s.diagram.value.ownerId
       && s.user.value.uid in s.diagram.value.access && s.diagram.value.access[s.user.value.uid].role == Viewer)
  {
    if s.diagram.Some? && s.user.Some? then GetUserDiagramRole(s.diagram.value, s.user.value.uid) else None
  }

  /** `canEdit`: a diagram and a user are loaded and the user owns the
      diagram or holds an editor entry on it. */
  function CanEdit(s: Session): (b: bool)
    ensures b <==> s.diagram.Some? && s.user.Some? &&
                   (s.user.value.uid == s.diagram.value.ownerId ||
                    (s.user.value.uid in s.diagram.value.access && s.diagram.value.access[s.user.value.uid].role == Editor))
  {
    UserRole(s) == Some(Editor)
  }

  /** `refreshDiagram`: reload the diagram named by the route; with no id
      there is no diagram. */
  function RefreshDiagram(store: Store, s: Session, now: Timestamp): (r: Session)
    ensures r.diagramId == s.diagramId && r.user == s.user
    ensures !HasId(s) ==> r.diagram.None?
    ensures HasId(s) ==> (r.diagram.Some? <==> s.diagramId.value in store)
    ensures r.diagram.Some? ==> HasId(s) && r.diagram == GetDiagram(store, s.diagramId.value, now)
  {
    if !HasId(s) then s.(diagram := None)
    else s.(diagram := GetDiagram(store, s.diagramId.value, now))
  }

  /** The result of one hook operation. */
  datatype Effect = Effect(store: Store, session: Session, error: Option<Failure>)

  /** `saveContent(nodes, edges)`: without an id or without edit permission
      it throws before writing; otherwise it overwrites the stored graph
      and, when that succeeds, the loaded diagram's graph. */
  function SaveContent(store: Store, s: Session, nodes: seq<Node>, edges: seq<Edge>, now: Timestamp): (r: Effect)
    ensures !HasId(s) || !CanEdit(s) ==> r == Effect(store, s, Some(CannotSave))
    ensures r.error.Some? ==> r.store == store && r.session == s
    ensures r.error.None? <==> HasId(s) && CanEdit(s) && s.diagramId.value in store
    ensures r.error.None? ==>
      var id := s.diagramId.value;
      && UpdatedOnly(store, r.store, id)
      && r.store[id].nodes == Some(nodes) && r.store[id].edges == Some(edges) && r.store[id].updatedAt == Some(now)
      && r.store[id].(nodes := store[id].nodes, edges := store[id].edges, updatedAt := store[id].updatedAt) == store[id]
    ensures r.error.None? ==>
      var d := s.diagram.value;
      && r.session.diagramId == s.diagramId && r.session.user == s.user
      && r.session.diagram.Some?
      && r.session.diagram.value.nodes == nodes && r.session.diagram.value.edges == edges
      && r.session.diagram.value.updatedAt == now
      && r.session.diagram.value.(nodes := d.nodes, edges := d.edges, updatedAt := d.updatedAt) == d
  {
    if !HasId(s) || !CanEdit(s) then Effect(store, s, Some(CannotSave))
    else
      match UpdateDiagramContent(store, s.diagramId.value, nodes, edges, now)
      case Err(e) => Effect(store, s, Some(StoreFailure(e)))
      case Ok(store') =>
        Effect(store', s.(diagram := Some(s.diagram.value.(nodes := nodes, edges := edges, updatedAt := now))), None)
  }

  /** Saving and then reloading gives back exactly the graph that was saved. */
  lemma SaveThenReload(store: Store, s: Session, nodes: seq<Node>, edges: seq<Edge>, now: Timestamp, later: Timestamp)
    requires HasId(s) && CanEdit(s) && s.diagramId.value in store
    ensures var r := SaveContent(store, s, nodes, edges, now);
      && r.error.None?
      && RefreshDiagram(r.store, r.session, later).diagram.Some?
      && RefreshDiagram(r.store, r.session, later).diagram.value.nodes == nodes
      && RefreshDiagram(r.store, r.session, later).diagram.value.edges == edges
  {
  }

  /** `saveInfo(title, description)`: the same gate as `saveContent`; only
      the title and the description change, in the store and locally. */
  function SaveInfo(store: Store, s: Session, title: string, description: Option<string>, now: Timestamp): (r: Effect)
    ensures !HasId(s) || !CanEdit(s) ==> r == Effect(store, s, Some(CannotSave))
    ensures r.error.Some? ==> r.store == store && r.session == s
    ensures r.error.None? <==> HasId(s) && CanEdit(s) && s.diagramId.value in store
    ensures r.error.None? ==>
      var id := s.diagramId.value;
      && UpdatedOnly(store, r.store, id)
      && r.store[id].title == title && r.store[id].description == description && r.store[id].updatedAt == Some(now)
      && r.store[id].(title := store[id].title, description := store[id].description, updatedAt := store[id].updatedAt) == store[id]
    ensures r.error.None? ==>
      var d := s.diagram.value;
      && r.session.diagramId == s.diagramId && r.session.user == s.user
      && r.session.diagram.Some?
      && r.session.diagram.value.title == title && r.session.diagram.value.description == description
      && r.session.diagram.value.updatedAt == now
      && r.session.diagram.value.(title := d.title, description := d.description, updatedAt := d.updatedAt) == d
  {
    if !HasId(s) || !CanEdit(s) then Effect(store, s, Some(CannotSave))
    else
      match UpdateDiagramInfo(store, s.diagramId.value, title, description, now)
      case Err(e) => Effect(store, s, Some(StoreFailure(e)))
      case Ok(store') =>
        Effect(store', s.(diagram := Some(s.diagram.value.(title := title, description := description, updatedAt := now))), None)
  }

  /** `shareWithUser(email, role)`: checks edit permission first, then looks
      the e-mail up; an unknown e-mail throws "User not found with that
      email". Otherwise the looked-up user is granted `role` under the
      e-mail as typed, and the diagram is reloaded. No error path writes. */
  function ShareWithUser(store: Store, users: seq<UserDocument>, s: Session, email: string, role: Role, now: Timestamp): (r: Effect)
    ensures !HasId(s) || !CanEdit(s) ==> r == Effect(store, s, Some(CannotShare))
    ensures HasId(s) && CanEdit(s) && FindUserByEmail(users, email).None? ==> r == Effect(store, s, Some(UserNotFound))
    ensures r.error.Some? ==> r.store == store && r.session == s
    ensures r.error.None? <==> HasId(s) && CanEdit(s) && FindUserByEmail(users, email).Some? && s.diagramId.value in store
    ensures r.error.None? ==>
      && r.store == ShareDiagram(store, s.diagramId.value, email, FindUserByEmail(users, email).value.uid, role, now).value
      && r.session == RefreshDiagram(r.store, s, now)
  {
    if !HasId(s) || !CanEdit(s) then Effect(store, s, Some(CannotShare))
    else
      match FindUserByEmail(users, email)
      case None => Effect(store, s, Some(UserNotFound))
      case Some(target) =>
        match ShareDiagram(store, s.diagramId.value, email, target.uid, role, now)
        case Err(e) => Effect(store, s, Some(StoreFailure(e)))
        case Ok(store') => Effect(store', RefreshDiagram(store', s, now), None)
  }

  /** `revokeAccess(userId)`: throws with no write unless the caller can
      edit; otherwise removes the entry and reloads the diagram. */
  function RevokeAccess(store: Store, s: Session, userId: UserId, now: Timestamp): (r: Effect)
    ensures !HasId(s) || !CanEdit(s) ==> r == Effect(store, s, Some(CannotRevoke))
    ensures r.error.Some? ==> r.store == store && r.session == s
    ensures r.error.None? <==> HasId(s) && CanEdit(s) && s.diagramId.value in store
    ensures r.error.None? ==>
      && r.store == RemoveAccess(store, s.diagramId.value, userId, now).value
      && r.session == RefreshDiagram(r.store, s, now)
  {
    if !HasId(s) || !CanEdit(s) then Effect(store, s, Some(CannotRevoke))
    else
      match RemoveAccess(store, s.diagramId.value, userId, now)
      case Err(e) => Effect(store, s, Some(StoreFailure(e)))
      case Ok(store') => Effect(store', RefreshDiagram(store', s, now), None)
  }

  /** A viewer's save, info save, share and revoke all fail and leave both
      the store and the loaded diagram exactly as they were. */
  lemma ViewerCannotWrite(store: Store, users: seq<UserDocument>, s: Session, nodes: seq<Node>, edges: seq<Edge>,
                          title: string, description: Option<string>, email: string, role: Role, userId: UserId, now: Timestamp)
    requires UserRole(s) == Some(Viewer)
    ensures SaveContent(store, s, nodes, edges, now) == Effect(store, s, Some(CannotSave))
    ensures SaveInfo(store, s, title, description, now) == Effect(store, s, Some(CannotSave))
    ensures ShareWithUser(store, users, s, email, role, now) == Effect(store, s, Some(CannotShare))
    ensures RevokeAccess(store, s, userId, now) == Effect(store, s, Some(CannotRevoke))
  {
  }

  // ---------------------------------------------------------------------
  // useDiagrams
  // ---------------------------------------------------------------------

  /** The state of `useDiagrams`: the signed-in user and the listed diagrams. */
  datatype Listing = Listing(user: Option<UserDocument>, diagrams: seq<Diagram>)

  /** The result of one list operation. */
  datatype ListEffect = ListEffect(store: Store, listing: Listing, created: Option<Diagram>, error: Option<Failure>)

  /** `refreshDiagrams`: nobody signed in lists nothing; otherwise the
      user's owned-then-shared diagrams. */
  function RefreshDiagrams(store: Store, order: seq<DiagramId>, l: Listing, now: Timestamp): (r: Listing)
    ensures r.user == l.user
    ensures l.user.None? ==> r.diagrams == []
    ensures forall k :: 0 <= k < |r.diagrams| ==> l.user.Some? && GetUserDiagramRole(r.diagrams[k], l.user.value.uid).Some?
    ensures forall k :: 0 <= k < |r.diagrams| ==>
      r.diagrams[k].id in store && r.diagrams[k].id in order && r.diagrams[k] == ToDiagram(r.diagrams[k].id, store[r.diagrams[k].id], now)
    ensures l.user.Some? ==> r.diagrams == GetUserDiagrams(store, order, l.user.value.uid, now)
  {
    if l.user.None? then l.(diagrams := [])
    else l.(diagrams := GetUserDiagrams(store, order, l.user.value.uid, now))
  }

  /** With a user signed in, a stored document that the enumeration names is
      listed exactly when it gives that user a role. */
  lemma RefreshDiagramsComplete(store: Store, order: seq<DiagramId>, l: Listing, now: Timestamp, id: DiagramId)
    requires l.user.Some? && id in order && id in store
    ensures var r := RefreshDiagrams(store, order, l, now);
      GetUserDiagramRole(ToDiagram(id, store[id], now), l.user.value.uid).Some? <==>
      exists k :: 0 <= k < |r.diagrams| && r.diagrams[k].id == id
  {
    GetUserDiagramsComplete(store, order, l.user.value.uid, now, id);
  }

  /** `createNewDiagram`: throws when nobody is signed in; otherwise creates
      the diagram owned by the signed-in user and puts it first in the list. */
  function CreateNewDiagram(store: Store, l: Listing, newId: DiagramId, title: string, description: Option<string>, now: Timestamp): (r: ListEffect)
    ensures l.user.None? ==> r == ListEffect(store, l, None, Some(NotLoggedIn))
    ensures r.error.None? <==> l.user.Some?
    ensures r.error.None? ==>
      && r.created.Some?
      && r.created.value.ownerId == l.user.value.uid
      && GetUserDiagramRole(r.created.value, l.user.value.uid) == Some(Editor)
      && r.listing.diagrams == [r.created.value] + l.diagrams
      && r.listing.user == l.user
      && GetDiagram(r.store, newId, now) == r.created
    ensures r.error.None? ==>
      && r.created.value.id == newId && r.created.value.title == title && r.created.value.description == description
      && r.created.value.ownerEmail == l.user.value.email
      && r.created.value.nodes == [] && r.created.value.edges == []
      && r.created.value.access == map[l.user.value.uid := AccessEntry(Editor, l.user.value.email, now)]
      && r.created.value.createdAt == now && r.created.value.updatedAt == now
      && r.store.Keys == store.Keys + {newId}
      && (forall id :: id in store && id != newId ==> r.store[id] == store[id])
  {
    if l.user.None? then ListEffect(store, l, None, Some(NotLoggedIn))
    else
      var c := CreateDiagram(store, newId, title, l.user.value.uid, l.user.value.email, description, now);
      ListEffect(c.store, l.(diagrams := [c.diagram] + l.diagrams), Some(c.diagram), None)
  }

  /** The list without the entries carrying `id`, in their original order. */
  function RemoveById(ds: seq<Diagram>, id: DiagramId): (r: seq<Diagram>)
    ensures forall d :: d in r <==> d in ds && d.id != id
    ensures |r| <= |ds|
  {
    if ds == [] then []
    else if ds[0].id == id then RemoveById(ds[1..], id)
    else [ds[0]] + RemoveById(ds[1..], id)
  }

  /** Removal works piecewise on a concatenation, so the entries kept stay
      in their relative order. */
  lemma {:induction false} RemoveByIdConcat(a: seq<Diagram>, b: seq<Diagram>, id: DiagramId)
    ensures RemoveById(a + b, id) == RemoveById(a, id) + RemoveById(b, id)
  {
    if a == [] {
      assert a + b == b;
    } else {
      assert (a + b)[0] == a[0];
      assert (a + b)[1..] == a[1..] + b;
      RemoveByIdConcat(a[1..], b, id);
      if a[0].id != id {
        assert [a[0]] + (RemoveById(a[1..], id) + RemoveById(b, id)) == ([a[0]] + RemoveById(a[1..], id)) + RemoveById(b, id);
      }
    }
  }

  /** A list with no entry carrying `id` is left as it is. */
  lemma {:induction false} RemoveByIdAbsent(ds: seq<Diagram>, id: DiagramId)
    requires forall k :: 0 <= k < |ds| ==> ds[k].id != id
    ensures RemoveById(ds, id) == ds
  {
    if ds != [] {
      RemoveByIdAbsent(ds[1..], id);
    }
  }

  /** `removeDiagram(id)`: deletes the document, then drops every list entry
      carrying that id and keeps the others in order. */
  function RemoveDiagram(store: Store, l: Listing, id: DiagramId): (r: ListEffect)
    ensures r.error.None? && r.created.None?
    ensures r.store == DeleteDiagram(store, id)
    ensures r.listing.user == l.user
    ensures forall d :: d in r.listing.diagrams <==> d in l.diagrams && d.id != id
    ensures r.listing.diagrams == RemoveById(l.diagrams, id)
  {
    ListEffect(DeleteDiagram(store, id), l.(diagrams := RemoveById(l.diagrams, id)), None, None)
  }
}

=== FILE: labeleditor.dfy ===
/** The inline label editor of a diagram node: a two-state machine, viewing
    or editing, that asks for a relabel only when the text really changed. */
module LabelEditor {
  import opened Wrappers

  /** Whether the node shows an input, and the text in it. */
  datatype Editor = Editor(isEditing: bool, text: string)

  /** What the node receives from the editing surface: its id, its current
      label, and whether a relabel callback was supplied. */
  datatype NodeProps = NodeProps(id: string, currentLabel: string, hasCallback: bool)

  /** A call of the node's relabel callback. */
  datatype Relabel = Relabel(nodeId: string, newLabel: string)

  /** The editor after an event, and the callback call it made, if any. */
  datatype Step = Step(editor: Editor, call: Option<Relabel>)

  /** A node starts out viewing, with an empty input. */
  const Viewing: Editor := Editor(false, "")

  /** `startEditing` (double click): editing, with the input holding the
      current label. */
  function StartEditing(e: Editor, p: NodeProps): (r: Editor)
    ensures r.isEditing && r.text == p.currentLabel
  {
    Editor(true, p.currentLabel)
  }

  /** Typing into the input replaces its text and stays in the same mode. */
  function Type(e: Editor, text: string): (r: Editor)
    ensures r.isEditing == e.isEditing && r.text == text
  {
    e.(text := text)
  }

  /** `saveLabel` (Enter or leaving the input): calls back exactly when there
      is a callback and the text differs from the current label, with the
      node's id and the text; always leaves editing mode. */
  function SaveLabel(e: Editor, p: NodeProps): (r: Step)
    ensures !r.editor.isEditing && r.editor.text == e.text
    ensures r.call.Some? <==> p.hasCallback && e.text != p.currentLabel
    ensures r.call.Some? ==> r.call.value == Relabel(p.id, e.text)
  {
    var call := if p.hasCallback && e.text != p.currentLabel then Some(Relabel(p.id, e.text)) else None;
    Step(e.(isEditing := false), call)
  }

  /** `cancelEditing` (Escape): leaves editing mode and never calls back. */
  function CancelEditing(e: Editor): (r: Step)
    ensures !r.editor.isEditing && r.editor.text == e.text && r.call.None?
  {
    Step(e.(isEditing := false), None)
  }

  /** `handleKeyDown`: Enter saves, Escape cancels, any other key changes
      nothing. */
  function HandleKeyDown(e: Editor, p: NodeProps, key: string): (r: Step)
    ensures key == "Enter" ==> r == SaveLabel(e, p)
    ensures key == "Escape" ==> r == CancelEditing(e)
    ensures key != "Enter" && key != "Escape" ==> r == Step(e, None)
  {
    if key == "Enter" then SaveLabel(e, p)
    else if key == "Escape" then CancelEditing(e)
    else Step(e, None)
  }

  /** Starting to edit and pressing Enter straight away relabels nothing. */
  lemma StartThenEnterCallsNothing(e: Editor, p: NodeProps)
    ensures HandleKeyDown(StartEditing(e, p), p, "Enter").call.None?
    ensures !HandleKeyDown(StartEditing(e, p), p, "Enter").editor.isEditing
  {
  }

  /** Whatever was typed, Escape relabels nothing and returns to viewing;
      the next edit starts again from the node's label, not the typed text. */
  lemma EscapeDiscardsTyping(e: Editor, p: NodeProps, text: string)
    ensures var r := HandleKeyDown(Type(StartEditing(e, p), text), p, "Escape");
      r.call.None? && !r.editor.isEditing && StartEditing(r.editor, p).text == p.currentLabel
  {
  }

  /** Typing a different text and pressing Enter relabels the node with it,
      provided the node has a callback. */
  lemma EditThenEnterRelabels(e: Editor, p: NodeProps, text: string)
    requires p.hasCallback && text != p.currentLabel
    ensures HandleKeyDown(Type(StartEditing(e, p), text), p, "Enter").call == Some(Relabel(p.id, text))
  {
  }
}

=== FILE: login.dfy ===
/** The sign-in / sign-up form: field validation, the submit handler that
    calls the authentication service only for a valid form, and the mode
    switch. The authentication service itself is a parameter: its outcome
    for the one call the form makes is passed in. */
module Login {
  import opened Wrappers
  import opened DiagramTypes
  import opened Text

  const EmailRequired: string := "Email is required"
  const PasswordRequired: string := "Password is required"
  const PasswordTooShort: string := "Password must be at least 6 characters"
  const PasswordsDiffer: string := "Passwords do not match"

  /** The shortest accepted password, in UTF-16 code units. */
  const MinPasswordLength: nat := 6

  /** The form's state, together with the authentication context's error. */
  datatype LoginForm = LoginForm(
    isSignUp: bool,
    email: string,
    password: string,
    confirmPassword: string,
    role: Role,
    showPassword: bool,
    formError: Option<string>,
    authError: Option<string>)

  /** The form as first shown: sign-in mode, every field empty, the editor
      role preselected for sign-up. */
  const InitialForm: LoginForm := LoginForm(false, "", "", "", Editor, false, None, None)

  /** JavaScript's `length` of a string: characters outside the basic
      multilingual plane take two UTF-16 code units. */
  function Utf16Length(s: string): (n: nat)
    ensures |s| <= n <= 2 * |s|
  {
    if s == [] then 0 else (if s[0] as int > 0xFFFF then 2 else 1) + Utf16Length(s[1..])
  }

  /** A string of basic-multilingual-plane characters has one code unit per
      character. */
  lemma {:induction false} Utf16LengthOfBmp(s: string)
    requires forall i :: 0 <= i < |s| ==> s[i] as int <= 0xFFFF
    ensures Utf16Length(s) == |s|
  {
    if s != [] {
      assert forall i :: 0 <= i < |s[1..]| ==> s[1..][i] == s[i + 1];
      Utf16LengthOfBmp(s[1..]);
    }
  }

  /** Code units add up over concatenation. */
  lemma {:induction false} Utf16LengthConcat(a: string, b: string)
    ensures Utf16Length(a + b) == Utf16Length(a) + Utf16Length(b)
  {
    if a != [] {
      assert (a + b)[1..] == a[1..] + b;
      Utf16LengthConcat(a[1..], b);
    } else {
      assert a + b == b;
    }
  }

  /** One character takes two code units above U+FFFF and one otherwise. */
  lemma Utf16LengthOfChar(c: char)
    ensures Utf16Length([c]) == if c as int > 0xFFFF then 2 else 1
  {
  }

  /** `validateForm`: the first failing check's message, `None` when every
      check passes. The checks, in order: a non-blank e-mail, a non-empty
      password, a password of at least six code units, and in sign-up mode
      a confirmation equal to the password. */
  function ValidateForm(f: LoginForm): (r: Option<string>)
    ensures r == Some(EmailRequired) <==> IsBlank(f.email)
    ensures r == Some(PasswordRequired) <==> !IsBlank(f.email) && f.password == []
    ensures r == Some(PasswordTooShort) <==>
      !IsBlank(f.email) && f.password != [] && Utf16Length(f.password) < MinPasswordLength
    ensures r == Some(PasswordsDiffer) <==>
      !IsBlank(f.email) && Utf16Length(f.password) >= MinPasswordLength && f.isSignUp && f.password != f.confirmPassword
    ensures r.None? || r == Some(EmailRequired) || r == Some(PasswordRequired) || r == Some(PasswordTooShort) || r == Some(PasswordsDiffer)
  {
    if IsBlank(f.email) then Some(EmailRequired)
    else if f.password == [] then Some(PasswordRequired)
    else if Utf16Length(f.password) < MinPasswordLength then Some(PasswordTooShort)
    else if f.isSignUp && f.password != f.confirmPassword then Some(PasswordsDiffer)
    else None
  }

  /** What a form may be submitted with, stated without the order of the
      checks: an e-mail with a non-whitespace character, a password of at
      least six code units, and in sign-up mode a matching confirmation. */
  predicate Acceptable(f: LoginForm) {
    Trim(f.email) != [] && Utf16Length(f.password) >= MinPasswordLength && (f.isSignUp ==> f.confirmPassword == f.password)
  }

  /** The validator passes exactly the acceptable forms. */
  lemma ValidateFormAcceptsExactly(f: LoginForm)
    ensures ValidateForm(f).None? <==> Acceptable(f)
  {
  }

  /** The call the form makes on the authentication service. The e-mail is
      passed as typed, not trimmed. */
  datatype AuthCall =
    | NoCall
    | SignInCall(email: string, password: string)
    | SignUpCall(email: string, password: string, role: Role)

  /** The form after a submit, the call made, and whether the page moved on
      to the dashboard. */
  datatype Submit = Submit(form: LoginForm, call: AuthCall, navigated: bool)

  /** `handleSubmit`: clears the authentication error and validates; an
      invalid form shows its message and calls nothing. A valid form calls
      sign-up (with the chosen role) or sign-in; `outcome` is that call's
      failure message, if any. Success navigates to the dashboard; a failure
      is swallowed by the page and shown through the authentication error. */
  function HandleSubmit(f: LoginForm, outcome: Option<string>): (r: Submit)
    ensures r.form.formError == ValidateForm(f)
    ensures r.form.(formError := f.formError, authError := f.authError) == f
    ensures r.call.NoCall? <==> !Acceptable(f)
    ensures r.call.SignInCall? <==> Acceptable(f) && !f.isSignUp
    ensures r.call.SignUpCall? <==> Acceptable(f) && f.isSignUp
    ensures r.call.SignInCall? ==> r.call == SignInCall(f.email, f.password)
    ensures r.call.SignUpCall? ==> r.call == SignUpCall(f.email, f.password, f.role)
    ensures r.navigated <==> !r.call.NoCall? && outcome.None?
    ensures r.form.authError == (if r.call.NoCall? then None else outcome)
  {
    ValidateFormAcceptsExactly(f);
    var cleared := f.(authError := None, formError := ValidateForm(f));
    if ValidateForm(f).Some? then Submit(cleared, NoCall, false)
    else
      var call := if f.isSignUp then SignUpCall(f.email, f.password, f.role) else SignInCall(f.email, f.password);
      Submit(cleared.(authError := outcome), call, outcome.None?)
  }

  /** In sign-in mode the confirmation field plays no part in a submit. */
  lemma SignInIgnoresConfirmation(f: LoginForm, confirm: string, outcome: Option<string>)
    requires !f.isSignUp
    ensures HandleSubmit(f, outcome).call == HandleSubmit(f.(confirmPassword := confirm), outcome).call
    ensures HandleSubmit(f, outcome).navigated == HandleSubmit(f.(confirmPassword := confirm), outcome).navigated
  {
  }

  /** `toggleMode`: flips between sign-in and sign-up and clears both errors
      and the confirmation; the e-mail, password and role are kept. */
  function ToggleMode(f: LoginForm): (r: LoginForm)
    ensures r.isSignUp == !f.isSignUp
    ensures r.formError.None? && r.authError.None? && r.confirmPassword == []
    ensures r.email == f.email && r.password == f.password && r.role == f.role && r.showPassword == f.showPassword
  {
    f.(isSignUp := !f.isSignUp, formError := None, authError := None, confirmPassword := "")
  }

  /** Switching mode twice gives back the form without errors or
      confirmation. */
  lemma ToggleModeTwice(f: LoginForm)
    ensures ToggleMode(ToggleMode(f)) == f.(formError := None, authError := None, confirmPassword := "")
  {
  }

  /** `formError || error`, as the page renders it: the form's message when
      it is a non-empty string, else the authentication error when that is,
      else nothing. */
  function DisplayError(f: LoginForm): (r: Option<string>)
    ensures r.Some? ==> r.value != [] && (r == f.formError || r == f.authError)
    ensures f.formError.Some? && f.formError.value != [] ==> r == f.formError
    ensures r.None? <==> (f.formError.None? || f.formError.value == []) && (f.authError.None? || f.authError.value == [])
  {
    if f.formError.Some? && f.formError.value != [] then f.formError
    else if f.authError.Some? && f.authError.value != [] then f.authError
    else None
  }

  /** A validation message hides any authentication error: after an
      invalid submit the page shows exactly that message. */
  lemma InvalidSubmitShowsValidationMessage(f: LoginForm, outcome: Option<string>)
    requires !Acceptable(f)
    ensures DisplayError(HandleSubmit(f, outcome).form) == ValidateForm(f)
    ensures HandleSubmit(f, outcome).call == NoCall && !HandleSubmit(f, outcome).navigated
  {
  }

  /** A valid form submitted in sign-up mode straight after switching from
      the initial form signs up with the preselected editor role. */
  lemma SignUpDefaultsToEditor(email: string, password: string, outcome: Option<string>)
    requires Trim(email) != [] && Utf16Length(password) >= MinPasswordLength
    ensures var f := ToggleMode(InitialForm).(email := email, password := password, confirmPassword := password);
      HandleSubmit(f, outcome).call == SignUpCall(email, password, Editor)
  {
  }
}

=== FILE: repository.dfy ===
/** The diagram repository over the `diagrams` collection of the document
    store, and the access-list updates made through it. The store is a map
    from document id to stored document; every operation is a pure state
    transformer that returns the new map. */
module Repository {
  import opened Wrappers
  import opened DiagramTypes
  import opened Roles

  type Store = map<DiagramId, StoredRecord>

  /** How a store operation can fail. */
  datatype StoreError =
    | DiagramNotFound     // `shareDiagram` / `removeAccess` found no document
    | NoDocumentToUpdate  // a field update addressed a missing document

  /** The access map of a stored document, empty when the field is absent. */
  function ReadAccess(rec: StoredRecord): AccessMap {
    rec.access.GetOr(map[])
  }

  /** The diagram a stored document reads as: absent graph and access fields
      read as empty, absent timestamps read as the time of reading. */
  function ToDiagram(id: DiagramId, rec: StoredRecord, now: Timestamp): (d: Diagram)
    ensures d.id == id && d.title == rec.title && d.description == rec.description
    ensures d.ownerId == rec.ownerId && d.ownerEmail == rec.ownerEmail
    ensures rec.nodes.None? ==> d.nodes == []
    ensures rec.nodes.Some? ==> d.nodes == rec.nodes.value
    ensures rec.edges.None? ==> d.edges == []
    ensures rec.edges.Some? ==> d.edges == rec.edges.value
    ensures rec.access.None? ==> d.access == map[]
    ensures rec.access.Some? ==> d.access == rec.access.value
    ensures d.createdAt == (if rec.createdAt.Some? then rec.createdAt.value else now)
    ensures d.updatedAt == (if rec.updatedAt.Some? then rec.updatedAt.value else now)
  {
    Diagram(
      id, rec.title, rec.description, rec.ownerId, rec.ownerEmail,
      rec.nodes.GetOr([]), rec.edges.GetOr([]), ReadAccess(rec),
      rec.createdAt.GetOr(now), rec.updatedAt.GetOr(now))
  }

  /** The stored document that holds every field of `d`. */
  function ToRecord(d: Diagram): StoredRecord {
    StoredRecord(
      d.title, d.description, d.ownerId, d.ownerEmail,
      Some(d.nodes), Some(d.edges), Some(d.access), Some(d.createdAt), Some(d.updatedAt))
  }

  /** A document written with every field reads back as the diagram it was
      written from, whenever it is read. */
  lemma ReadOfFullRecord(d: Diagram, now: Timestamp)
    ensures ToDiagram(d.id, ToRecord(d), now) == d
  {
  }

  /** `getDiagram`: `None` exactly when no document has the id; otherwise
      the stored fields, with missing graph and access fields read as empty. */
  function GetDiagram(store: Store, id: DiagramId, now: Timestamp): (r: Option<Diagram>)
    ensures r.None? <==> id !in store
    ensures r.Some? ==> r.value.id == id && r.value.ownerId == store[id].ownerId
    ensures r.Some? ==> r.value.title == store[id].title && r.value.description == store[id].description
    ensures r.Some? ==> r.value.ownerEmail == store[id].ownerEmail
    ensures r.Some? ==> r.value.createdAt == store[id].createdAt.GetOr(now) && r.value.updatedAt == store[id].updatedAt.GetOr(now)
    ensures r.Some? && store[id].nodes.None? ==> r.value.nodes == []
    ensures r.Some? && store[id].edges.None? ==> r.value.edges == []
    ensures r.Some? && store[id].access.None? ==> r.value.access == map[]
    ensures r.Some? && store[id].nodes.Some? ==> r.value.nodes == store[id].nodes.value
    ensures r.Some? && store[id].edges.Some? ==> r.value.edges == store[id].edges.value
    ensures r.Some? && store[id].access.Some? ==> r.value.access == store[id].access.value
  {
    if id in store then Some(ToDiagram(id, store[id], now)) else None
  }

  /** A new diagram and the store holding it. */
  datatype Created = Created(store: Store, diagram: Diagram)

  /** `createDiagram`: writes, under the fresh id the store hands out, a
      diagram with no nodes, no edges and an access map holding exactly the
      owner as editor, and returns it. */
  function CreateDiagram(store: Store, newId: DiagramId, title: string, ownerId: UserId, ownerEmail: string,
                         description: Option<string>, now: Timestamp): (c: Created)
    ensures c.diagram.id == newId && c.diagram.title == title && c.diagram.description == description
    ensures c.diagram.ownerId == ownerId && c.diagram.ownerEmail == ownerEmail
    ensures c.diagram.nodes == [] && c.diagram.edges == []
    ensures c.diagram.access == map[ownerId := AccessEntry(Editor, ownerEmail, now)]
    ensures GetUserDiagramRole(c.diagram, ownerId) == Some(Editor)
    ensures c.store.Keys == store.Keys + {newId}
    ensures forall id :: id in store && id != newId ==> c.store[id] == store[id]
    ensures GetDiagram(c.store, newId, now) == Some(c.diagram)
  {
    var d := Diagram(newId, title, description, ownerId, ownerEmail, [], [],
                     map[ownerId := AccessEntry(Editor, ownerEmail, now)], now, now);
    ReadOfFullRecord(d, now);
    Created(store[newId := ToRecord(d)], d)
  }

  /** The two queries of `getUserDiagrams`. */
  datatype Part = Owned | Shared

  /** Whether a stored document belongs to a part for user `u`: owned
      documents have `u` as owner; shared ones have another owner and an
      access entry for `u`. */
  predicate InPart(rec: StoredRecord, u: UserId, part: Part) {
    match part
    case Owned => rec.ownerId == u
    case Shared => rec.ownerId != u && rec.access.Some? && u in rec.access.value
  }

  /** One query of `getUserDiagrams`: the documents of the part, read as
      diagrams, in the store's enumeration order `order`. */
  function Query(store: Store, order: seq<DiagramId>, u: UserId, part: Part, now: Timestamp): (r: seq<Diagram>)
    ensures forall k :: 0 <= k < |r| ==> r[k].id in store && r[k].id in order
    ensures forall k :: 0 <= k < |r| ==> r[k] == ToDiagram(r[k].id, store[r[k].id], now) && InPart(store[r[k].id], u, part)
  {
    if order == [] then []
    else
      var rest := Query(store, order[1..], u, part, now);
      var id := order[0];
      if id in store && InPart(store[id], u, part) then [ToDiagram(id, store[id], now)] + rest else rest
  }

  /** A query misses no document of its part that `order` enumerates. */
  lemma {:induction false} QueryComplete(store: Store, order: seq<DiagramId>, u: UserId, part: Part, now: Timestamp, id: DiagramId)
    requires id in order && id in store && InPart(store[id], u, part)
    ensures exists k :: 0 <= k < |Query(store, order, u, part, now)| && Query(store, order, u, part, now)[k].id == id
  {
    var r := Query(store, order, u, part, now);
    var rest := Query(store, order[1..], u, part, now);
    var head := order[0];
    if head in store && InPart(store[head], u, part) {
      assert r == [ToDiagram(head, store[head], now)] + rest;
    } else {
      assert r == rest;
    }
    if head == id {
      assert r[0].id == id;
    } else {
      assert id in order[1..];
      QueryComplete(store, order[1..], u, part, now, id);
      var k :| 0 <= k < |rest| && rest[k].id == id;
      if head in store && InPart(store[head], u, part) {
        assert r[k + 1] == rest[k];
      } else {
        assert r[k] == rest[k];
      }
    }
  }

  /** No id appears twice in `ids`. */
  predicate Distinct(ids: seq<DiagramId>) {
    forall i, j :: 0 <= i < j < |ids| ==> ids[i] != ids[j]
  }

  /** No two diagrams in `ds` carry the same id. */
  predicate DistinctIds(ds: seq<Diagram>) {
    forall j, k :: 0 <= j < k < |ds| ==> ds[j].id != ds[k].id
  }

  /** A query over an enumeration that names each document once lists each
      diagram once. */
  lemma {:induction false} QueryDistinct(store: Store, order: seq<DiagramId>, u: UserId, part: Part, now: Timestamp)
    requires Distinct(order)
    ensures DistinctIds(Query(store, order, u, part, now))
  {
    if order != [] {
      var r := Query(store, order, u, part, now);
      var rest := Query(store, order[1..], u, part, now);
      var head := order[0];
      assert Distinct(order[1..]) by {
        forall i, j | 0 <= i < j < |order[1..]| ensures order[1..][i] != order[1..][j] {
          assert order[1..][i] == order[i + 1] && order[1..][j] == order[j + 1];
        }
      }
      QueryDistinct(store, order[1..], u, part, now);
      if head in store && InPart(store[head], u, part) {
        assert r == [ToDiagram(head, store[head], now)] + rest;
        assert head !in order[1..] by {
          forall i | 0 <= i < |order[1..]| ensures order[1..][i] != head {
            assert order[1..][i] == order[i + 1];
          }
        }
        forall j, k | 0 <= j < k < |r| ensures r[j].id != r[k].id {
          if j == 0 {
            assert r[0].id == head;
            assert r[k] == rest[k - 1] && rest[k - 1].id in order[1..];
          } else {
            assert r[j] == rest[j - 1] && r[k] == rest[k - 1];
          }
        }
      } else {
        assert r == rest;
      }
    }
  }

  /** `getUserDiagrams(u)`: the diagrams `u` owns followed by those shared
      with `u`. Every diagram listed resolves to a role for `u`; the owned
      ones all come first; and no diagram is in both parts. */
  function GetUserDiagrams(store: Store, order: seq<DiagramId>, u: UserId, now: Timestamp): (r: seq<Diagram>)
    ensures forall k :: 0 <= k < |r| ==> r[k].id in store && r[k].id in order
    ensures forall k :: 0 <= k < |r| ==> r[k] == ToDiagram(r[k].id, store[r[k].id], now)
    ensures forall k :: 0 <= k < |r| ==> GetUserDiagramRole(r[k], u).Some?
    ensures forall j, k :: 0 <= j < k < |r| && r[j].ownerId != u ==> r[k].ownerId != u
    ensures forall j, k :: 0 <= j < |r| && 0 <= k < |r| && r[j].ownerId == u && r[k].ownerId != u ==> r[j].id != r[k].id
  {
    var owned := Query(store, order, u, Owned, now);
    var shared := Query(store, order, u, Shared, now);
    var r := owned + shared;
    forall k | 0 <= k < |r|
      ensures r[k].id in store && r[k] == ToDiagram(r[k].id, store[r[k].id], now)
      ensures r[k].ownerId == u <==> k < |owned|
    {
      if k < |owned| {
        assert r[k] == owned[k] && InPart(store[owned[k].id], u, Owned);
      } else {
        assert r[k] == shared[k - |owned|] && InPart(store[r[k].id], u, Shared);
      }
    }
    r
  }

  /** A diagram that `order` enumerates is listed for `u` exactly when it
      resolves to a role for `u`. */
  lemma GetUserDiagramsComplete(store: Store, order: seq<DiagramId>, u: UserId, now: Timestamp, id: DiagramId)
    requires id in order && id in store
    ensures GetUserDiagramRole(ToDiagram(id, store[id], now), u).Some? <==>
      exists k :: 0 <= k < |GetUserDiagrams(store, order, u, now)| && GetUserDiagrams(store, order, u, now)[k].id == id
  {
    var owned := Query(store, order, u, Owned, now);
    var shared := Query(store, order, u, Shared, now);
    var r := GetUserDiagrams(store, order, u, now);
    assert r == owned + shared;
    if GetUserDiagramRole(ToDiagram(id, store[id], now), u).Some? {
      if InPart(store[id], u, Owned) {
        QueryComplete(store, order, u, Owned, now, id);
        var k :| 0 <= k < |owned| && owned[k].id == id;
        assert r[k].id == id;
      } else {
        QueryComplete(store, order, u, Shared, now, id);
        var k :| 0 <= k < |shared| && shared[k].id == id;
        assert r[|owned| + k].id == id;
      }
    }
  }

  /** Over an enumeration that names each document once, the dashboard
      lists each diagram once. */
  lemma GetUserDiagramsDistinct(store: Store, order: seq<DiagramId>, u: UserId, now: Timestamp)
    requires Distinct(order)
    ensures DistinctIds(GetUserDiagrams(store, order, u, now))
  {
    var owned := Query(store, order, u, Owned, now);
    var shared := Query(store, order, u, Shared, now);
    var r := GetUserDiagrams(store, order, u, now);
    assert r == owned + shared;
    QueryDistinct(store, order, u, Owned, now);
    QueryDistinct(store, order, u, Shared, now);
    forall j, k | 0 <= j < k < |r| ensures r[j].id != r[k].id {
      if k < |owned| {
        assert r[j] == owned[j] && r[k] == owned[k];
      } else if |owned| <= j {
        assert r[j] == shared[j - |owned|] && r[k] == shared[k - |owned|];
      } else {
        assert r[j] == owned[j] && r[k] == shared[k - |owned|];
        assert InPart(store[owned[j].id], u, Owned) && InPart(store[shared[k - |owned|].id], u, Shared);
      }
    }
  }

  /** The outcome of a field update on an existing document: the same keys,
      every other document unchanged. */
  predicate UpdatedOnly(store: Store, store': Store, id: DiagramId) {
    store'.Keys == store.Keys && forall other :: other in store && other != id ==> store'[other] == store[other]
  }

  /** `updateDiagramContent`: overwrites the nodes, the edges and the update
      time of an existing document and nothing else; a missing document is
      an error. */
  function UpdateDiagramContent(store: Store, id: DiagramId, nodes: seq<Node>, edges: seq<Edge>, now: Timestamp): (r: Result<Store, StoreError>)
    ensures r.Ok? <==> id in store
    ensures r.Err? ==> r.error == NoDocumentToUpdate
    ensures r.Ok? ==> UpdatedOnly(store, r.value, id)
    ensures r.Ok? ==> r.value[id].nodes == Some(nodes) && r.value[id].edges == Some(edges) && r.value[id].updatedAt == Some(now)
    ensures r.Ok? ==> r.value[id].(nodes := store[id].nodes, edges := store[id].edges, updatedAt := store[id].updatedAt) == store[id]
  {
    if id in store then Ok(store[id := store[id].(nodes := Some(nodes), edges := Some(edges), updatedAt := Some(now))])
    else Err(NoDocumentToUpdate)
  }

  /** `updateDiagramInfo`: overwrites the title, the description and the
      update time of an existing document and nothing else. */
  function UpdateDiagramInfo(store: Store, id: DiagramId, title: string, description: Option<string>, now: Timestamp): (r: Result<Store, StoreError>)
    ensures r.Ok? <==> id in store
    ensures r.Err? ==> r.error == NoDocumentToUpdate
    ensures r.Ok? ==> UpdatedOnly(store, r.value, id)
    ensures r.Ok? ==> r.value[id].title == title && r.value[id].description == description && r.value[id].updatedAt == Some(now)
    ensures r.Ok? ==> r.value[id].(title := store[id].title, description := store[id].description, updatedAt := store[id].updatedAt) == store[id]
  {
    if id in store then Ok(store[id := store[id].(title := title, description := description, updatedAt := Some(now))])
    else Err(NoDocumentToUpdate)
  }

  /** `deleteDiagram`: the document is gone and nothing else changes;
      deleting a missing document changes nothing. */
  function DeleteDiagram(store: Store, id: DiagramId): (r: Store)
    ensures id !in r
    ensures r.Keys == store.Keys - {id}
    ensures forall other :: other in store && other != id ==> r[other] == store[other]
  {
    store - {id}
  }

  /** After `deleteDiagram(id)`, `getDiagram(id)` returns nothing. */
  lemma GetAfterDelete(store: Store, id: DiagramId, now: Timestamp)
    ensures GetDiagram(DeleteDiagram(store, id), id, now) == None
  {
  }

  /** `shareDiagram`: on an existing document, the access map read from it
      gains or replaces the entry of `userId` and keeps every other entry;
      only the access map and the update time are written. A missing
      document fails with "Diagram not found" and nothing is written. */
  function ShareDiagram(store: Store, diagramId: DiagramId, email: string, userId: UserId, role: Role, now: Timestamp): (r: Result<Store, StoreError>)
    ensures r.Ok? <==> diagramId in store
    ensures r.Err? ==> r.error == DiagramNotFound
    ensures r.Ok? ==> UpdatedOnly(store, r.value, diagramId)
    ensures r.Ok? ==> r.value[diagramId].(access := store[diagramId].access, updatedAt := store[diagramId].updatedAt) == store[diagramId]
    ensures r.Ok? ==> r.value[diagramId].access.Some? && r.value[diagramId].updatedAt == Some(now)
    ensures r.Ok? ==> var a := ReadAccess(store[diagramId]); var a' := ReadAccess(r.value[diagramId]);
      && userId in a' && a'[userId] == AccessEntry(role, email, now)
      && a'.Keys == a.Keys + {userId}
      && forall k :: k in a && k != userId ==> a'[k] == a[k]
  {
    match GetDiagram(store, diagramId, now)
    case None => Err(DiagramNotFound)
    case Some(d) =>
      var access := d.access[userId := AccessEntry(role, email, now)];
      Ok(store[diagramId := store[diagramId].(access := Some(access), updatedAt := Some(now))])
  }

  /** `removeAccess`: on an existing document, the access map read from it
      loses exactly the entry of `userId` (the owner's key included) and
      keeps every other entry; only the access map and the update time are
      written. A missing document fails and nothing is written. */
  function RemoveAccess(store: Store, diagramId: DiagramId, userId: UserId, now: Timestamp): (r: Result<Store, StoreError>)
    ensures r.Ok? <==> diagramId in store
    ensures r.Err? ==> r.error == DiagramNotFound
    ensures r.Ok? ==> UpdatedOnly(store, r.value, diagramId)
    ensures r.Ok? ==> r.value[diagramId].(access := store[diagramId].access, updatedAt := store[diagramId].updatedAt) == store[diagramId]
    ensures r.Ok? ==> r.value[diagramId].access.Some? && r.value[diagramId].updatedAt == Some(now)
    ensures r.Ok? ==> var a := ReadAccess(store[diagramId]); var a' := ReadAccess(r.value[diagramId]);
      && a'.Keys == a.Keys - {userId}
      && forall k :: k in a' ==> a'[k] == a[k]
  {
    match GetDiagram(store, diagramId, now)
    case None => Err(DiagramNotFound)
    case Some(d) =>
      Ok(store[diagramId := store[diagramId].(access := Some(d.access - {userId}), updatedAt := Some(now))])
  }

  /** Sharing twice with the same arguments gives the same store as sharing once. */
  lemma ShareIdempotent(store: Store, diagramId: DiagramId, email: string, userId: UserId, role: Role, now: Timestamp)
    requires diagramId in store
    ensures ShareDiagram(store, diagramId, email, userId, role, now).Ok?
    ensures var s1 := ShareDiagram(store, diagramId, email, userId, role, now).value;
      ShareDiagram(s1, diagramId, email, userId, role, now) == Ok(s1)
  {
    var s1 := ShareDiagram(store, diagramId, email, userId, role, now).value;
    var a1 := ReadAccess(s1[diagramId]);
    assert a1[userId := AccessEntry(role, email, now)] == a1;
    assert s1[diagramId].(access := Some(a1), updatedAt := Some(now)) == s1[diagramId];
    assert s1[diagramId := s1[diagramId]] == s1;
  }

  /** After sharing, the shared-with user resolves to the granted role (or
      to editor, if they own the diagram) and every other user keeps the
      role they had. */
  lemma ShareResolvesRole(store: Store, diagramId: DiagramId, email: string, userId: UserId, role: Role, now: Timestamp, t: Timestamp)
    requires diagramId in store
    ensures ShareDiagram(store, diagramId, email, userId, role, now).Ok?
    ensures var before := GetDiagram(store, diagramId, t).value;
      var after := GetDiagram(ShareDiagram(store, diagramId, email, userId, role, now).value, diagramId, t).value;
      && GetUserDiagramRole(after, userId) == (if userId == before.ownerId then Some(Editor) else Some(role))
      && forall v :: v != userId ==> GetUserDiagramRole(after, v) == GetUserDiagramRole(before, v)
  {
  }

  /** After removing an entry, the removed user has no role unless they own
      the diagram, in which case they are still an editor; every other user
      keeps the role they had. */
  lemma RemoveAccessResolvesRole(store: Store, diagramId: DiagramId, userId: UserId, now: Timestamp, t: Timestamp)
    requires diagramId in store
    ensures RemoveAccess(store, diagramId, userId, now).Ok?
    ensures var before := GetDiagram(store, diagramId, t).value;
      var after := GetDiagram(RemoveAccess(store, diagramId, userId, now).value, diagramId, t).value;
      && GetUserDiagramRole(after, userId) == (if userId == before.ownerId then Some(Editor) else None)
      && forall v :: v != userId ==> GetUserDiagramRole(after, v) == GetUserDiagramRole(before, v)
  {
  }

  /** Removing an entry right after granting it leaves the access map as it
      was, minus any entry the user had before. */
  lemma RemoveAfterShare(store: Store, diagramId: DiagramId, email: string, userId: UserId, role: Role, now: Timestamp)
    requires diagramId in store
    ensures ShareDiagram(store, diagramId, email, userId, role, now).Ok?
    ensures var s1 := ShareDiagram(store, diagramId, email, userId, role, now).value;
      RemoveAccess(s1, diagramId, userId, now).Ok?
      && ReadAccess(RemoveAccess(s1, diagramId, userId, now).value[diagramId]) == ReadAccess(store[diagramId]) - {userId}
  {
  }
}

=== FILE: roles.dfy ===
/** Role resolution: which role, if any, a user holds on a diagram. */
module Roles {
  import opened Wrappers
  import opened DiagramTypes

  /** The role of `userId` on `d`: the owner is always an editor, whatever
      the access map says about them; anyone else holds the role of their
      access entry, and a user without an entry has no role at all. */
  function GetUserDiagramRole(d: Diagram, userId: UserId): (r: Option<Role>)
    ensures r == Some(Editor) <==> userId == d.ownerId || (userId in d.access && d.access[userId].role == Editor)
    ensures r == Some(Viewer) <==> userId != d.ownerId && userId in d.access && d.access[userId].role == Viewer
    ensures r == None <==> userId != d.ownerId && userId !in d.access
  {
    if d.ownerId == userId then Some(Editor)
    else if userId in d.access then Some(d.access[userId].role)
    else None
  }

  /** The owner resolves to editor whatever is stored under their key. */
  lemma OwnerIsAlwaysEditor(d: Diagram, entries: AccessMap)
    ensures GetUserDiagramRole(d.(access := entries), d.ownerId) == Some(Editor)
  {
  }

  /** A user's role depends only on the owner id and that user's own access
      entry: changing anybody else's entry, or any other field, leaves it. */
  lemma RoleDependsOnlyOnOwnEntry(d1: Diagram, d2: Diagram, userId: UserId)
    requires d1.ownerId == d2.ownerId
    requires (userId in d1.access) == (userId in d2.access)
    requires userId in d1.access ==> d1.access[userId].role == d2.access[userId].role
    ensures GetUserDiagramRole(d1, userId) == GetUserDiagramRole(d2, userId)
  {
  }
}

=== FILE: scenarios.dfy ===
/** Concrete walks through the model: the node counter after loading, an
    owner sharing a diagram with a viewer, and a diagram's life from
    creation to deletion. */
module Scenarios {
  import opened Wrappers
  import opened DiagramTypes
  import opened Roles
  import opened Repository
  import opened Users
  import opened Text
  import opened Hooks
  import opened EditBuffer
  import opened EditorPage
  import opened Login

  const Origin: Position := Position(0.0, 0.0)

  function Plain(id: string): Node {
    Node(id, Some(NewNodeKind), Origin, NodeData(id, None))
  }

  const Alice: UserDocument := UserDocument("alice", "alice@example.com", Editor, None)
  const Bob: UserDocument := UserDocument("bob", "bob@example.com", Viewer, None)

  /** Loading nodes `node-1`, `node-3` and `start` numbers the next added
      node `node-4`: the gap is not filled and the unnumbered id is ignored. */
  lemma LoadSkipsToAfterLargest(d: Diagram)
    requires d.nodes == [Plain(NodeIdFor(1)), Plain(NodeIdFor(3)), Plain("start")]
    ensures Load(Initial, d).nextNodeId == 4
    ensures AddNode(Load(Initial, d), true, Palette[0], Origin).nodes[3].id == NodeIdFor(4)
  {
    NodeSuffixOfNodeIdFor(1);
    NodeSuffixOfNodeIdFor(3);
    StartCarriesNoNumber();
    var n := d.nodes;
    assert MaxSuffixFrom(n[2..], 3) == 3 by {
      assert n[2..][1..] == [];
    }
    assert MaxSuffixFrom(n[1..], 1) == 3 by {
      assert n[1..][1..] == n[2..];
    }
    assert MaxSuffixFrom(n, 0) == 3;
  }

  /** `start` carries no node number. */
  lemma StartCarriesNoNumber()
    ensures NodeSuffix("start") == None
  {
  }

  /** Alice's page after she creates a diagram and opens it. */
  function AlicePage(store: Store, now: Timestamp): Page {
    var c := CreateDiagram(store, "d1", "Flow", Alice.uid, Alice.email, None, now);
    OpenPage(c.store, Some("d1"), Some(Alice), now)
  }

  /** Alice's share of that diagram with Bob, his e-mail typed in capitals
      and padded. */
  function AliceShares(store: Store, now: Timestamp): PageStep {
    var c := CreateDiagram(store, "d1", "Flow", Alice.uid, Alice.email, None, now);
    var p := AlicePage(store, now);
    HandleShare(c.store, [Alice, Bob], p.(share := p.share.(open := true, email := " BOB@example.com ")), now)
  }

  /** Alice can edit her new diagram, and sharing it with Bob as a viewer
      adds his entry, under the e-mail as trimmed but not lower-cased, next
      to hers, and closes the dialog. */
  lemma AliceSharesWithBob(store: Store, now: Timestamp)
    requires "d1" !in store
    ensures CanEdit(AlicePage(store, now).session)
    ensures var shared := AliceShares(store, now);
      && "d1" in shared.store
      && shared.store["d1"].access == Some(map[Alice.uid := AccessEntry(Editor, Alice.email, now),
                                                Bob.uid := AccessEntry(Viewer, "BOB@example.com", now)])
      && shared.store["d1"].ownerId == Alice.uid
      && !shared.page.share.open
  {
    var c := CreateDiagram(store, "d1", "Flow", Alice.uid, Alice.email, None, now);
    var p := AlicePage(store, now);
    assert p.share.role == Viewer;
    assert CanEdit(p.session);
    TrimOfPadded();
    FindBobInCapitals();
    var shared := AliceShares(store, now);
    assert shared.store == ShareDiagram(c.store, "d1", "BOB@example.com", Bob.uid, Viewer, now).value;
  }

  /** After Alice's share, Bob's page shows the diagram read-only: his
      gestures change nothing and his save writes nothing. */
  lemma ShareWithViewer(store: Store, now: Timestamp, later: Timestamp, pos: Position)
    requires "d1" !in store
    ensures var shared := AliceShares(store, now);
      var bobPage := OpenPage(shared.store, Some("d1"), Some(Bob), later);
      && UserRole(bobPage.session) == Some(Viewer)
      && !CanEdit(bobPage.session)
      && AddNode(bobPage.buffer, CanEdit(bobPage.session), bobPage.selectedColor, pos) == bobPage.buffer
      && HandleSave(shared.store, bobPage.(buffer := bobPage.buffer.(hasChanges := true)), later).store == shared.store
  {
    AliceSharesWithBob(store, now);
    var shared := AliceShares(store, now);
    var bobPage := OpenPage(shared.store, Some("d1"), Some(Bob), later);
    assert bobPage.session.diagram.value.access == shared.store["d1"].access.value;
    assert bobPage.session.diagram.value.ownerId == Alice.uid;
  }

  /** Trimming the padded e-mail Alice typed. */
  lemma TrimOfPadded()
    ensures !IsBlank(" BOB@example.com ") && Trim(" BOB@example.com ") == "BOB@example.com"
  {
    assert !IsWhitespace('B') && !IsWhitespace('m');
    assert TrimStart(" BOB@example.com ") == "BOB@example.com ";
    assert TrimEnd("BOB@example.com ") == "BOB@example.com";
  }

  /** The capitalised e-mail finds Bob's profile. */
  lemma FindBobInCapitals()
    ensures FindUserByEmail([Alice, Bob], "BOB@example.com") == Some(Bob)
  {
    assert ToLowerAscii("BOB@example.com") == "bob@example.com";
  }

  /** An editor adds two nodes and connects them, saves, and then deletes
      the diagram: the save stores both nodes, the deletion removes it. */
  lemma BuildSaveDelete(store: Store, now: Timestamp, addEdge: (EdgeSpec, seq<Edge>) -> seq<Edge>)
    requires "d2" !in store
    ensures var c := CreateDiagram(store, "d2", "Plan", Alice.uid, Alice.email, None, now);
      var p := OpenPage(c.store, Some("d2"), Some(Alice), now);
      var b1 := AddNode(p.buffer, true, Palette[1], Origin);
      var b2 := AddNode(b1, true, Palette[2], Origin);
      var b3 := OnConnect(b2, true, Connection(NodeIdFor(1), NodeIdFor(2), None, None), addEdge);
      var saved := HandleSave(c.store, p.(buffer := b3), now);
      && |saved.store["d2"].nodes.value| == 2
      && saved.store["d2"].nodes.value[0].id == NodeIdFor(1)
      && saved.store["d2"].nodes.value[1].id == NodeIdFor(2)
      && !saved.page.buffer.hasChanges
      && GetDiagram(DeleteDiagram(saved.store, "d2"), "d2", now).None?
  {
    var c := CreateDiagram(store, "d2", "Plan", Alice.uid, Alice.email, None, now);
    var p := OpenPage(c.store, Some("d2"), Some(Alice), now);
    assert p.buffer.nodes == [] by {
      assert p.session.diagram == Some(c.diagram);
    }
    assert p.buffer.nextNodeId == 1 by {
      assert MaxSuffixFrom([], 0) == 0;
    }
    assert CanEdit(p.session);
    var b1 := AddNode(p.buffer, true, Palette[1], Origin);
    var b2 := AddNode(b1, true, Palette[2], Origin);
    assert b2.nodes[0] == b1.nodes[0];
    var b3 := OnConnect(b2, true, Connection(NodeIdFor(1), NodeIdFor(2), None, None), addEdge);
    assert b3.nodes == b2.nodes && b3.hasChanges;
    var saved := HandleSave(c.store, p.(buffer := b3), now);
    assert saved.store["d2"].nodes == Some(b3.nodes);
    GetAfterDelete(saved.store, "d2", now);
  }

  /** A new account: switching to sign-up and typing a five-character
      password is refused before any call; six characters sign up as an
      editor and open the dashboard. */
  lemma SignUpNeedsSixCharacters(email: string)
    requires Trim(email) != []
    ensures var f := ToggleMode(InitialForm).(email := email);
      && HandleSubmit(f.(password := "abcde", confirmPassword := "abcde"), None).call == NoCall
      && DisplayError(HandleSubmit(f.(password := "abcde", confirmPassword := "abcde"), None).form) == Some(PasswordTooShort)
      && HandleSubmit(f.(password := "abcdef", confirmPassword := "abcdef"), None).call == SignUpCall(email, "abcdef", Editor)
      && HandleSubmit(f.(password := "abcdef", confirmPassword := "abcdef"), None).navigated
  {
  }
}

=== FILE: text.dfy ===
/** The JavaScript string operations the core relies on, written out:
    `trim`, `indexOf` and `replace` with a string pattern, `parseInt(_, 10)`,
    the rendering of a non-negative integer inside a template literal, and
    `toLowerCase` restricted to ASCII letters. */
module Text {
  import opened Wrappers

  /** The ECMAScript WhiteSpace and LineTerminator code points: what `trim`
      removes and what `parseInt` skips before the number. */
  predicate IsWhitespace(c: char) {
    || c == '\t' || c == '\n' || c == '\U{000B}' || c == '\U{000C}' || c == '\r'
    || c == ' ' || c == '\U{00A0}' || c == '\U{1680}'
    || ('\U{2000}' <= c <= '\U{200A}')
    || c == '\U{2028}' || c == '\U{2029}' || c == '\U{202F}' || c == '\U{205F}'
    || c == '\U{3000}' || c == '\U{FEFF}'
  }

  predicate AllWhitespace(s: string) {
    forall i :: 0 <= i < |s| ==> IsWhitespace(s[i])
  }

  predicate IsDigit(c: char) {
    '0' <= c <= '9'
  }

  predicate AllDigits(s: string) {
    forall i :: 0 <= i < |s| ==> IsDigit(s[i])
  }

  /** Drops the leading whitespace. */
  function TrimStart(s: string): string {
    if |s| > 0 && IsWhitespace(s[0]) then TrimStart(s[1..]) else s
  }

  /** What `TrimStart` drops is a whitespace prefix, and what it keeps is
      empty or starts with a non-whitespace character. */
  lemma {:induction false} TrimStartSplits(s: string)
    ensures var r := TrimStart(s);
      && |r| <= |s| && r == s[|s| - |r|..]
      && AllWhitespace(s[..|s| - |r|])
      && (r == [] || !IsWhitespace(r[0]))
  {
    if |s| > 0 && IsWhitespace(s[0]) {
      TrimStartSplits(s[1..]);
      var r := TrimStart(s[1..]);
      assert s[1..][|s[1..]| - |r|..] == s[|s| - |r|..];
      assert s[..|s| - |r|] == [s[0]] + s[1..][..|s[1..]| - |r|];
    }
  }

  /** Drops the trailing whitespace. */
  function TrimEnd(s: string): string {
    if |s| > 0 && IsWhitespace(s[|s| - 1]) then TrimEnd(s[..|s| - 1]) else s
  }

  /** What `TrimEnd` drops is a whitespace suffix, and what it keeps is
      empty or ends with a non-whitespace character. */
  lemma {:induction false} TrimEndSplits(s: string)
    ensures var r := TrimEnd(s);
      && |r| <= |s| && r == s[..|r|]
      && AllWhitespace(s[|r|..])
      && (r == [] || !IsWhitespace(r[|r| - 1]))
  {
    if |s| > 0 && IsWhitespace(s[|s| - 1]) {
      TrimEndSplits(s[..|s| - 1]);
      var r := TrimEnd(s[..|s| - 1]);
      assert s[..|s| - 1][..|r|] == s[..|r|];
      assert s[|r|..] == s[..|s| - 1][|r|..] + [s[|s| - 1]];
    }
  }

  /** A string is all whitespace exactly when what remains after dropping
      its leading whitespace is. */
  lemma {:induction false} AllWhitespaceOfTrimStart(s: string)
    ensures AllWhitespace(s) <==> AllWhitespace(TrimStart(s))
  {
    TrimStartSplits(s);
    var t := TrimStart(s);
    if AllWhitespace(t) {
      assert t == [];
      assert s == s[..|s| - |t|];
    } else {
      var i :| 0 <= i < |t| && !IsWhitespace(t[i]);
      assert t[i] == s[|s| - |t| + i];
    }
  }

  /** Likewise for dropping the trailing whitespace. */
  lemma {:induction false} AllWhitespaceOfTrimEnd(s: string)
    ensures AllWhitespace(s) <==> TrimEnd(s) == []
  {
    TrimEndSplits(s);
    var r := TrimEnd(s);
    if r != [] {
      assert r[|r| - 1] == s[|r| - 1];
    } else {
      assert s == s[|r|..];
    }
  }

  /** Dropping the leading and then the trailing whitespace keeps one slice
      of `s`, with only whitespace on either side of it. */
  lemma TrimBothSplits(s: string)
    ensures var t := TrimStart(s);
      var i, j := |s| - |t|, |s| - |t| + |TrimEnd(t)|;
      && 0 <= i <= j <= |s| && TrimEnd(t) == s[i..j]
      && AllWhitespace(s[..i]) && AllWhitespace(s[j..])
  {
    var t := TrimStart(s);
    TrimStartSplits(s);
    TrimEndSplits(t);
    var r := TrimEnd(t);
    var i, j := |s| - |t|, |s| - |t| + |r|;
    assert t[|r|..] == s[j..];
    assert r == s[i..j];
  }

  /** Dropping the leading and then the trailing whitespace leaves nothing
      exactly when `s` is all whitespace, and otherwise leaves a string that
      starts and ends with a non-whitespace character. */
  lemma TrimEndsOfTrimStart(s: string)
    ensures var r := TrimEnd(TrimStart(s));
      && (r == [] <==> AllWhitespace(s))
      && (r != [] ==> !IsWhitespace(r[0]) && !IsWhitespace(r[|r| - 1]))
  {
    var t := TrimStart(s);
    TrimStartSplits(s);
    AllWhitespaceOfTrimStart(s);
    TrimEndSplits(t);
    AllWhitespaceOfTrimEnd(t);
    var r := TrimEnd(t);
    assert r != [] ==> r[0] == t[0];
  }

  /** `s.trim()`: a slice of `s` with only whitespace cut off either side;
      empty exactly when `s` is all whitespace, and otherwise starting and
      ending with a non-whitespace character. */
  function Trim(s: string): (r: string)
    ensures exists i, j :: 0 <= i <= j <= |s| && r == s[i..j] && AllWhitespace(s[..i]) && AllWhitespace(s[j..])
    ensures r == [] <==> AllWhitespace(s)
    ensures r != [] ==> !IsWhitespace(r[0]) && !IsWhitespace(r[|r| - 1])
    ensures |r| <= |s|
  {
    var t := TrimStart(s);
    var r := TrimEnd(t);
    TrimEndsOfTrimStart(s);
    TrimBothSplits(s);
    var i, j := |s| - |t|, |s| - |t| + |r|;
    assert r == s[i..j] && AllWhitespace(s[..i]) && AllWhitespace(s[j..]);
    r
  }

  /** JavaScript falsiness of `s.trim()`: the string is empty or whitespace only. */
  predicate IsBlank(s: string) {
    Trim(s) == []
  }

  /** Longest prefix of `s` made of decimal digits. */
  function DigitPrefix(s: string): (r: string)
    ensures AllDigits(r)
  {
    if |s| > 0 && IsDigit(s[0]) then [s[0]] + DigitPrefix(s[1..]) else []
  }

  /** `DigitPrefix` is a prefix, and the character after it, if any, is not a digit. */
  lemma {:induction false} DigitPrefixIsLongest(s: string)
    ensures var r := DigitPrefix(s);
      |r| <= |s| && r == s[..|r|] && (|r| < |s| ==> !IsDigit(s[|r|]))
  {
    if |s| > 0 && IsDigit(s[0]) {
      DigitPrefixIsLongest(s[1..]);
      var r := DigitPrefix(s[1..]);
      assert s[..|r| + 1] == [s[0]] + s[1..][..|r|];
    }
  }

  /** Decimal value of a string of digits, most significant first. */
  function DigitsValue(s: string): nat
    requires AllDigits(s)
  {
    if s == [] then 0 else 10 * DigitsValue(s[..|s| - 1]) + (s[|s| - 1] as int - '0' as int)
  }

  /** `parseInt(s, 10)`, with `None` for `NaN`: skip leading whitespace, take
      an optional sign, then the longest run of digits; no digit means `NaN`. */
  function ParseInt(s: string): Option<int> {
    var t := TrimStart(s);
    var negative := |t| > 0 && t[0] == '-';
    var unsigned := if |t| > 0 && (t[0] == '-' || t[0] == '+') then t[1..] else t;
    var digits := DigitPrefix(unsigned);
    if digits == [] then None
    else
      var value: int := DigitsValue(digits);
      Some(if negative then -value else value)
  }

  /** The longest digit prefix of digits followed by a non-digit is those
      digits. */
  lemma {:induction false} DigitPrefixOfDigitsThen(d: string, rest: string)
    requires AllDigits(d) && (rest == [] || !IsDigit(rest[0]))
    ensures DigitPrefix(d + rest) == d
  {
    if d != [] {
      assert (d + rest)[1..] == d[1..] + rest;
      assert AllDigits(d[1..]) by {
        forall i | 0 <= i < |d[1..]| ensures IsDigit(d[1..][i]) {
          assert d[1..][i] == d[i + 1];
        }
      }
      DigitPrefixOfDigitsThen(d[1..], rest);
      assert d == [d[0]] + d[1..];
    } else {
      assert d + rest == rest;
    }
  }

  /** `parseInt` stops at the first character that is not a digit: a run of
      digits followed by anything else reads as the run alone. */
  lemma ParseIntIgnoresTrailing(d: string, rest: string)
    requires d != [] && AllDigits(d) && (rest == [] || !IsDigit(rest[0]))
    ensures ParseInt(d + rest) == Some(DigitsValue(d))
  {
    var s := d + rest;
    assert IsDigit(s[0]);
    assert TrimStart(s) == s;
    DigitPrefixOfDigitsThen(d, rest);
  }

  /** After a minus sign, the same run of digits reads as its negation. */
  lemma ParseIntOfNegative(d: string, rest: string)
    requires d != [] && AllDigits(d) && (rest == [] || !IsDigit(rest[0]))
    ensures ParseInt(['-'] + d + rest) == Some(-(DigitsValue(d) as int))
  {
    var s := ['-'] + d + rest;
    var t := TrimStart(s);
    assert t == s;
    var unsigned := t[1..];
    assert unsigned == d + rest;
    DigitPrefixOfDigitsThen(d, rest);
    var digits := DigitPrefix(unsigned);
    assert digits == d;
  }

  /** A blank string is `NaN`. */
  lemma ParseIntOfBlank(s: string)
    requires AllWhitespace(s)
    ensures ParseInt(s).None?
  {
    TrimStartSplits(s);
    AllWhitespaceOfTrimStart(s);
  }

  /** A string whose first character is neither whitespace, a sign nor a
      digit is `NaN`. */
  lemma ParseIntOfNonNumeric(s: string)
    requires |s| > 0 && !IsWhitespace(s[0]) && !IsDigit(s[0]) && s[0] != '-' && s[0] != '+'
    ensures ParseInt(s).None?
  {
  }

  function DigitChar(d: nat): (c: char)
    requires d < 10
    ensures IsDigit(c) && c as int - '0' as int == d
  {
    ('0' as int + d) as char
  }

  /** How a template literal renders a non-negative integer: its decimal
      digits, without leading zeros. */
  function NatToString(n: nat): (r: string)
    ensures r != [] && AllDigits(r)
    ensures r[0] == '0' ==> n == 0
  {
    if n < 10 then [DigitChar(n)] else NatToString(n / 10) + [DigitChar(n % 10)]
  }

  /** Reading back the digits of `n` gives `n`. */
  lemma {:induction false} DigitsValueOfNatToString(n: nat)
    ensures DigitsValue(NatToString(n)) == n
  {
    if n >= 10 {
      var s := NatToString(n);
      assert s[..|s| - 1] == NatToString(n / 10);
      DigitsValueOfNatToString(n / 10);
    }
  }

  /** Distinct numbers render as distinct strings. */
  lemma NatToStringInjective(a: nat, b: nat)
    requires NatToString(a) == NatToString(b)
    ensures a == b
  {
    DigitsValueOfNatToString(a);
    DigitsValueOfNatToString(b);
  }

  /** A string of digits is its own longest digit prefix. */
  lemma {:induction false} DigitPrefixOfDigits(s: string)
    requires AllDigits(s)
    ensures DigitPrefix(s) == s
  {
    if s != [] {
      assert AllDigits(s[1..]) by {
        forall i | 0 <= i < |s[1..]| ensures IsDigit(s[1..][i]) {
          assert s[1..][i] == s[i + 1];
        }
      }
      DigitPrefixOfDigits(s[1..]);
      assert s == [s[0]] + s[1..];
    }
  }

  /** `parseInt` reads a rendered non-negative integer back exactly. */
  lemma ParseIntOfNatToString(n: nat)
    ensures ParseInt(NatToString(n)) == Some(n)
  {
    var s := NatToString(n);
    assert IsDigit(s[0]);
    assert !IsWhitespace(s[0]);
    assert TrimStart(s) == s;
    assert s[0] != '-' && s[0] != '+';
    DigitPrefixOfDigits(s);
    DigitsValueOfNatToString(n);
  }

  /** `pat` occurs in `s` starting at index `j`. */
  predicate OccursAt(s: string, pat: string, j: int) {
    0 <= j && j + |pat| <= |s| && s[j..j + |pat|] == pat
  }

  /** `s.indexOf(pat, from)`, with `None` for `-1`. */
  function IndexOf(s: string, pat: string, from: nat): (r: Option<nat>)
    ensures r.Some? ==> from <= r.value && r.value + |pat| <= |s|
    decreases |s| - from
  {
    if from + |pat| > |s| then None
    else if s[from..from + |pat|] == pat then Some(from)
    else IndexOf(s, pat, from + 1)
  }

  /** `IndexOf` finds the first occurrence of `pat` at or after `from`, and
      reports none exactly when there is none. */
  lemma {:induction false} IndexOfFindsFirst(s: string, pat: string, from: nat)
    ensures var r := IndexOf(s, pat, from);
      && (r.Some? ==> from <= r.value && OccursAt(s, pat, r.value))
      && (r.Some? ==> forall j :: from <= j < r.value ==> !OccursAt(s, pat, j))
      && (r.None? ==> forall j :: from <= j ==> !OccursAt(s, pat, j))
    decreases |s| - from
  {
    if from + |pat| <= |s| && s[from..from + |pat|] != pat {
      IndexOfFindsFirst(s, pat, from + 1);
    }
  }

  /** `s.replace(pat, rep)` with a string pattern: only the first occurrence
      is replaced, wherever it is. */
  function ReplaceFirst(s: string, pat: string, rep: string): string {
    match IndexOf(s, pat, 0)
    case None => s
    case Some(i) => s[..i] + rep + s[i + |pat|..]
  }

  /** Replacing a pattern that the string starts with replaces that prefix. */
  lemma ReplaceFirstOfPrefix(pat: string, t: string, rep: string)
    ensures ReplaceFirst(pat + t, pat, rep) == rep + t
  {
  }

  /** `replace` with a pattern that does not occur leaves the string as it
      is. */
  lemma ReplaceFirstWithoutOccurrence(s: string, pat: string, rep: string)
    requires forall j :: 0 <= j ==> !OccursAt(s, pat, j)
    ensures ReplaceFirst(s, pat, rep) == s
  {
    IndexOfFindsFirst(s, pat, 0);
  }

  /** `replace` with a string pattern swaps the first occurrence for `rep`
      and keeps the text around it; later occurrences stay. */
  lemma ReplaceFirstAtFirstOccurrence(s: string, pat: string, rep: string, i: nat)
    requires OccursAt(s, pat, i) && forall j :: 0 <= j < i ==> !OccursAt(s, pat, j)
    ensures ReplaceFirst(s, pat, rep) == s[..i] + rep + s[i + |pat|..]
  {
    IndexOfFindsFirst(s, pat, 0);
    assert IndexOf(s, pat, 0) == Some(i);
  }

  /** `s.toLowerCase()` on the ASCII letters. */
  function ToLowerAscii(s: string): (r: string)
    ensures |r| == |s|
    ensures forall i :: 0 <= i < |r| ==> !('A' <= r[i] <= 'Z')
    ensures forall i :: 0 <= i < |s| && !('A' <= s[i] <= 'Z') ==> r[i] == s[i]
    ensures forall i :: 0 <= i < |s| && 'A' <= s[i] <= 'Z' ==> 'a' <= r[i] <= 'z' && r[i] as int - 'a' as int == s[i] as int - 'A' as int
  {
    seq(|s|, i requires 0 <= i < |s| =>
      if 'A' <= s[i] <= 'Z' then (s[i] as int + 32) as char else s[i])
  }
}

=== FILE: types.dfy ===
/** The entities of the diagram builder: users, roles, access entries, graph
    nodes and edges, and diagram documents, both as the application sees
    them and as the document store holds them. */
module DiagramTypes {
  import opened Wrappers

  type UserId = string
  type DiagramId = string

  /** A permission tier; there are exactly two. */
  datatype Role = Editor | Viewer

  /** An instant. Client clocks and server timestamps are not compared with
      each other anywhere in the core, so nothing is assumed about them. */
  datatype Timestamp = Timestamp(millis: int)

  /** What a diagram's access map holds for one user. */
  datatype AccessEntry = AccessEntry(role: Role, email: string, addedAt: Timestamp)

  /** The access map of a diagram, keyed by user id; key order is irrelevant. */
  type AccessMap = map<UserId, AccessEntry>

  /** Canvas coordinates of a node (floating point in the application). */
  datatype Position = Position(x: real, y: real)

  /** The persisted payload of a node (`label` is a keyword here, hence `labelText`). */
  datatype NodeData = NodeData(labelText: string, color: Option<string>)

  /** A node of the graph-editing surface: its id, its node type, where it
      is drawn, and its payload. */
  datatype Node = Node(id: string, kind: Option<string>, position: Position, data: NodeData)

  /** Presentation attributes of an edge, carried along and never interpreted. */
  datatype EdgeStyle = EdgeStyle(kind: Option<string>, animated: bool, stroke: Option<string>, strokeWidth: Option<int>)

  /** A directed edge between two node ids. */
  datatype Edge = Edge(id: string, source: string, target: string, style: EdgeStyle)

  /** A connect gesture of the graph-editing surface. */
  datatype Connection = Connection(source: string, target: string, sourceHandle: Option<string>, targetHandle: Option<string>)

  /** A diagram as the application reads it. */
  datatype Diagram = Diagram(
    id: DiagramId,
    title: string,
    description: Option<string>,
    ownerId: UserId,
    ownerEmail: string,
    nodes: seq<Node>,
    edges: seq<Edge>,
    access: AccessMap,
    createdAt: Timestamp,
    updatedAt: Timestamp)

  /** A diagram document as the store holds it: the graph, the access map
      and the timestamps may be missing from a stored document. */
  datatype StoredRecord = StoredRecord(
    title: string,
    description: Option<string>,
    ownerId: UserId,
    ownerEmail: string,
    nodes: Option<seq<Node>>,
    edges: Option<seq<Edge>>,
    access: Option<AccessMap>,
    createdAt: Option<Timestamp>,
    updatedAt: Option<Timestamp>)

  /** A user profile document. */
  datatype UserDocument = UserDocument(uid: UserId, email: string, role: Role, displayName: Option<string>)
}

=== FILE: users.dfy ===
/** Looking up a user profile by e-mail in the `users` collection. */
module Users {
  import opened Wrappers
  import opened DiagramTypes
  import opened Text

  /** `findUserByEmail`: the first profile, in the collection's order, whose
      stored e-mail equals the lower-cased query; `None` when there is none. */
  function FindUserByEmail(users: seq<UserDocument>, email: string): (r: Option<UserDocument>)
    ensures r.Some? ==> r.value in users && r.value.email == ToLowerAscii(email)
    ensures r.None? <==> forall i :: 0 <= i < |users| ==> users[i].email != ToLowerAscii(email)
    ensures r.Some? ==> exists i :: 0 <= i < |users| && users[i] == r.value &&
                                    forall j :: 0 <= j < i ==> users[j].email != ToLowerAscii(email)
  {
    if users == [] then None
    else if users[0].email == ToLowerAscii(email) then Some(users[0])
    else
      var r := FindUserByEmail(users[1..], email);
      assert forall i :: 1 <= i < |users| ==> users[i] == users[1..][i - 1];
      r
  }
}

=== FILE: wrappers.dfy ===
/** Optional values and results with an error, used wherever the program
    returns `null` or throws. */
module Wrappers {

  datatype Option<+T> = None | Some(value: T) {

    /** The wrapped value, or `default` when there is none (JavaScript `x || default`). */
    function GetOr(default: T): T {
      match this
      case Some(v) => v
      case None => default
    }
  }

  datatype Result<+T, +E> = Ok(value: T) | Err(error: E)
}
